=== FILE: README.md ===
# TMSU `repair`, modelled in Dafny

TMSU keeps a catalog of tagged files and directories. `tmsu repair [PATH]...`
brings that catalog back in line with the disk. It works in four steps:

1. It walks the given paths once and builds a **candidate index**: every
   non-empty regular file, grouped by size.
2. It lists the catalog entries below each path and **classifies** each one
   from a stat of its stored path:
   - unchanged: same modification second and same size;
   - modified: the file is re-fingerprinted and its record updated;
   - skipped: permission denied or another stat error;
   - missing: the entry goes to move resolution.
3. **Move resolution** looks for a missing entry among the candidates of its
   stored size. The first candidate whose content fingerprint is equal wins,
   and the entry's record moves there, unless another record already holds
   that path.
4. **Directory reconciliation** runs for every tracked directory that exists.
   It registers the directory's untracked children and gives each child an
   implicit tagging for each of the directory's tags.

The model has no I/O:

- The filesystem is an immutable map from paths to nodes (`FileSystem`).
  Paths are sequences of names, so `Join` is injective.
- The fingerprint function is an uninterpreted parameter,
  `Path -> Option<string>`. `None` means fingerprinting failed.
- The catalog is a sequence of records indexed by id plus a sequence of
  tagging rows (`Storage`).
- Each Go function becomes a pure function in `CandidateIndex` or `Repair`.
  It returns the new catalog, the reports it printed, and the error that
  ended the run. Updates made before an error stay in the returned catalog,
  because each update is committed on its own, and the loops stop at the
  first error (`RepairProofs.CheckEntriesStopsAtFailure`,
  `RepairProofs.ReconcileChildrenStopsAtFailure`).

Modules: `Results` (Option/Result), `FileSystem`, `Storage`,
`CandidateIndex` with `CandidateIndexProofs`, and `Repair` with
`RepairProofs`.

Notes on what the code does:

- `checkEntry` passes `false` to `store.TagsByFileId` (line 161). The model
  reads that parameter as "explicit only". So a directory propagates **all**
  its tags, implicit ones included, and not just its explicit tags.
- The "new" report for a registered child is printed only in verbose mode
  (lines 197-199). The model's log therefore has no event for it.
- Modification times are compared in whole seconds (`Time.Unix`, line 138).
  A change that stays within the same whole second, with the same size, is
  classified as unchanged. Timestamps are nanoseconds, and `UnixSeconds`
  floors, as Go does.
- The catalog keeps one record per path. So `store.UpdateFile` refuses to
  give a record a path that another record holds, and lines 148-151 and
  258-261 then end the run. Move resolution does not skip candidates that
  are already tracked (lines 242-258). So a missing entry whose first match
  is a tracked file stops the run instead of being moved.
- The command's own description (lines 47-71) says that with no PATH every
  tagged file is checked. The loop at lines 92-109 runs over the arguments
  only, so a run without arguments checks nothing. The model follows the
  loop (`RepairProofs.ExecWithoutRoots`).

## Model

| member | source | states |
|---|---|---|
| FileSystem.JoinInjective | src/tmsu/cli/commands/repair.go:190 | two different (directory, name) pairs never join to the same child path |
| Storage.FilesByDirectory | src/tmsu/cli/commands/repair.go:98-103 | the entries checked for a root are exactly the records strictly below it, each once, in increasing id order, as they stand when the root is reached |
| Storage.FileByPath | src/tmsu/cli/commands/repair.go:192-196 | finds the first record with the child's path; absent exactly when no record has that path |
| Storage.FileTagByFileIdAndTagId | src/tmsu/cli/commands/repair.go:208-213 | finds the first tagging row for the (file, tag) pair; absent exactly when no row has that pair |
| Storage.TagsByFileId | src/tmsu/cli/commands/repair.go:161 | the directory's tags, each exactly once: a tag is listed exactly when some row tags the directory with it (with `false`, implicit rows count too) |
| CandidateIndex.Walk | src/tmsu/cli/commands/repair.go:300-342 | the walk from a path fails exactly when that path's own open, stat or listing fails; errors below it never surface |
| CandidateIndexProofs.BuildMatchesWalk | src/tmsu/cli/commands/repair.go:300-342 | the recursive build with its shared map adds exactly the files the walk enumerates, in walk order; when it fails the map is untouched |
| CandidateIndexProofs.BuildChildrenMatchesWalk | src/tmsu/cli/commands/repair.go:324-327 | the loop over a directory's entries ignores each child's error and adds the children's files in listing order |
| CandidateIndexProofs.InsertLookup | src/tmsu/cli/commands/repair.go:331-338 | adding files appends, under each size, exactly the added paths of that size, in order, after what the list already held |
| CandidateIndexProofs.InsertKeys | src/tmsu/cli/commands/repair.go:332-337 | a size is a key afterwards exactly when it was one before or an added file has that size |
| CandidateIndexProofs.WithSizeFrom | src/tmsu/cli/commands/repair.go:336-337 | every path listed under a size comes from an added file of exactly that size |
| CandidateIndexProofs.InsertAppend | src/tmsu/cli/commands/repair.go:336-337 | adding two batches of files one after the other equals adding them together |
| CandidateIndexProofs.WalkSound | src/tmsu/cli/commands/repair.go:317-338 | a walk finds only non-empty regular files that could be opened, at or below its start; directories are never candidates |
| CandidateIndexProofs.WalkChildrenSound | src/tmsu/cli/commands/repair.go:324-327 | what a directory's children contribute lies strictly below the directory |
| CandidateIndexProofs.BuildRootsMatchesSurvey | src/tmsu/cli/commands/repair.go:280-291 | the loop over roots with its shared map agrees with walking each root separately: same index, same skipped roots, same fatal error |
| CandidateIndexProofs.SurveySound | src/tmsu/cli/commands/repair.go:280-291 | every file found is a non-empty, openable regular file at or below one of the roots (a root that is a file is itself a candidate) |
| CandidateIndexProofs.SurveyFailure | src/tmsu/cli/commands/repair.go:280-291 | the build fails exactly at the first root whose walk fails with something other than a permission error; the skipped roots are exactly the permission-denied roots before it (all of them when no root is fatal), in order |
| CandidateIndexProofs.BuildFileSystemMapSpec | src/tmsu/cli/commands/repair.go:273-298 | on failure there is no index; otherwise each size maps to exactly the files of that size the reference walk reaches from the roots, in walk order: the openable non-empty regular files, where a subtree whose open or listing fails contributes nothing; every indexed path is such a file under its own size, and size 0 is never a key |
| Repair.Classify | src/tmsu/cli/commands/repair.go:119-138 | missing exactly on "does not exist"; skipped for permission or other errors; unchanged exactly when stat succeeds and both the modification second and the size match; modified exactly when stat succeeds and either differs |
| Repair.CheckEntry | src/tmsu/cli/commands/repair.go:114-173 | checking one entry changes no record except the entry's own, deletes nothing, and only appends tagging rows |
| Repair.ReconcileIfDirectory | src/tmsu/cli/commands/repair.go:160-170 | a file ends the check with no further change; a directory is reconciled, which only appends records and rows |
| Repair.ProcessMissingEntry | src/tmsu/cli/commands/repair.go:227-271 | move resolution changes at most the missing entry's own record, adds no record and no tagging |
| Repair.SearchCandidates | src/tmsu/cli/commands/repair.go:240-270 | the candidate loop changes at most the missing entry's own record, adds no record and no tagging |
| Repair.ProcessDirectory | src/tmsu/cli/commands/repair.go:175-225 | reconciliation only appends records and tagging rows and reports only implicit taggings; it never fails in the store; it succeeds when the directory can be listed and every child can be stat'ed and fingerprinted |
| Repair.ReconcileChildren | src/tmsu/cli/commands/repair.go:189-222 | every record added is a listed child of the directory, holding that child's fingerprint, modification time and size; every row added is an implicit tagging with one of the directory's tags; without error every listed child is tracked and implicitly tagged with each tag; it succeeds when every child can be stat'ed and fingerprinted, and a failure is the registration error of some listed child |
| Repair.ReconcileChild | src/tmsu/cli/commands/repair.go:190-221 | a tracked child gets no new record; an untracked one gets at most one record, holding its path, fingerprint, modification time and size, and exactly one when there is no error; it fails exactly when the child is untracked and cannot be stat'ed or fingerprinted, and then the catalog is unchanged and the failure is that error; without error the child carries every tag implicitly |
| Repair.AddChild | src/tmsu/cli/commands/repair.go:201-204 | registering a child fails exactly when it cannot be stat'ed or fingerprinted, with the stat error taking precedence; otherwise it appends exactly one record, holding the child's path, its fingerprint, and the modification time and size its stat reports, under the next id and leaves the other records alone |
| Repair.TagChild | src/tmsu/cli/commands/repair.go:207-221 | afterwards the child has an implicit tagging for every tag; every row added is an implicit tagging of this child with one of the tags; records are untouched |
| Repair.ChildReconciledStable | src/tmsu/cli/commands/repair.go:189-222 | later children's additions never undo an earlier child's reconciliation |
| Repair.CheckEntries | src/tmsu/cli/commands/repair.go:103-108 | the loop over a root's entries deletes nothing, only appends rows, and changes only records of the listed entries |
| RepairProofs.UnchangedEntryIsNotUpdated | src/tmsu/cli/commands/repair.go:135-158 | with equal modification second and size, no existing record changes and nothing is reported modified or moved; for a file the check changes nothing at all |
| Storage.UpdateFile | src/tmsu/cli/commands/repair.go:148-151 | the write is refused exactly when another record already holds the new path; otherwise only that record changes, no row changes, and paths stay unique |
| RepairProofs.ModifiedEntryIsUpdatedOnce | src/tmsu/cli/commands/repair.go:138-153 | with a differing second or size and no other record on its path, the entry's record gets the same path, the new fingerprint, time and size; no other record changes; the log opens with one "modified" and has no other modified or moved report |
| RepairProofs.StoredEntryNeverRefused | src/tmsu/cli/commands/repair.go:114-173 | an entry read from a catalog with unique paths that can be stat'ed never ends the run with a store refusal |
| RepairProofs.ModifiedEntryPathTaken | src/tmsu/cli/commands/repair.go:148-151 | when another record holds a modified entry's path, the catalog refuses the update and the run ends with the catalog unchanged |
| RepairProofs.ModifiedEntryFingerprintFailure | src/tmsu/cli/commands/repair.go:143-146 | a failing fingerprint of a modified entry ends the run with the catalog unchanged |
| RepairProofs.RecheckAfterModificationIsUnchanged | src/tmsu/cli/commands/repair.go:138-157 | after a file's record is updated, checking the updated entry against the same disk classifies it unchanged and changes nothing |
| RepairProofs.StatFailureIsSkipped | src/tmsu/cli/commands/repair.go:119-134 | a permission error or any other stat error except "does not exist" leaves the catalog unchanged, returns no error, and logs exactly one warning for the entry: the permission warning for a permission error, otherwise the stat-error warning with that error |
| RepairProofs.OnlyMissingEntriesAreResolved | src/tmsu/cli/commands/repair.go:121-123 | a move is reported only for an entry whose stat said "does not exist" |
| RepairProofs.MissingWithoutFingerprintIsLeft | src/tmsu/cli/commands/repair.go:228-234 | a missing entry with an empty fingerprint changes and reports nothing, for every index and every fingerprint function |
| RepairProofs.SearchFindsFirstMatch | src/tmsu/cli/commands/repair.go:242-264 | the loop tries to move the entry to the first candidate with an equal fingerprint and stops there |
| RepairProofs.SearchWithoutMatch | src/tmsu/cli/commands/repair.go:240-270 | with no equal fingerprint among the candidates, the entry is reported missing and the catalog is unchanged |
| RepairProofs.SearchFingerprintFailure | src/tmsu/cli/commands/repair.go:243-246 | a candidate that cannot be fingerprinted before any match ends the run with the catalog unchanged |
| RepairProofs.MissingEntryMovesToFirstMatch | src/tmsu/cli/commands/repair.go:240-264 | a missing entry with a fingerprint moves to the first same-size candidate with an equal fingerprint, when no other record holds that path: candidate path and stat, fingerprint kept, one "moved" report, nothing else changed |
| RepairProofs.MissingEntryWithoutMatchIsLeft | src/tmsu/cli/commands/repair.go:240-270 | when no same-size candidate matches, the entry is reported missing and the catalog is unchanged |
| RepairProofs.OnlySameSizeCandidatesMatter | src/tmsu/cli/commands/repair.go:240 | two indexes that agree on the stored size give the same check result |
| RepairProofs.SearchWithSoundCandidates | src/tmsu/cli/commands/repair.go:253-258 | when every candidate is a regular file of the stored size, the candidate's stat never fails (only a fingerprint or a refused write can end the run), and a moved record keeps its fingerprint and size and points at a candidate |
| RepairProofs.MissingEntryWithSoundIndex | src/tmsu/cli/commands/repair.go:227-271 | with a sound index, move resolution never fails on a stat, and a moved record keeps its fingerprint and size |
| RepairProofs.DirectoryChildrenReconciled | src/tmsu/cli/commands/repair.go:175-225 | a directory that cannot be listed ends the run unchanged; otherwise every added record is a listed child, every added row is an implicit tagging with a given tag, and without error every listed child is tracked and implicitly tagged with every tag |
| RepairProofs.NewRecordsUntrackedTransitive | src/tmsu/cli/commands/repair.go:192-205 | records appended in two rounds are untracked in the first catalog if each round appended only untracked paths |
| RepairProofs.OnlyUntrackedChildrenAdded | src/tmsu/cli/commands/repair.go:192-205 | every record the reconciliation adds has a path the catalog did not track before |
| RepairProofs.ReconcileChildKeepsPathsUnique | src/tmsu/cli/commands/repair.go:192-205 | registering one child keeps every path on at most one record |
| RepairProofs.ReconcileChildrenStopsAtFailure | src/tmsu/cli/commands/repair.go:189-222 | a failed child loop is the error-free loop over the names before some child k, followed by child k's failing reconciliation: earlier registrations stay and later children are not looked at |
| RepairProofs.RegisteredChildrenInSync | src/tmsu/cli/commands/repair.go:201-204 | every record a directory's reconciliation appends agrees with the disk at its path |
| RepairProofs.ReconcileChildrenKeepsPathsUnique | src/tmsu/cli/commands/repair.go:189-222 | reconciling a directory keeps every path on at most one record |
| RepairProofs.SearchKeepsPathsUnique | src/tmsu/cli/commands/repair.go:240-270 | move resolution keeps every path on at most one record |
| RepairProofs.CheckEntryKeepsPathsUnique | src/tmsu/cli/commands/repair.go:114-173 | checking any entry, whatever its state on disk, keeps every path on at most one record |
| RepairProofs.CheckEntriesKeepsPathsUnique | src/tmsu/cli/commands/repair.go:103-108 | the loop over a root's entries keeps every path on at most one record |
| RepairProofs.CheckRootsKeepsPathsUnique | src/tmsu/cli/commands/repair.go:92-109 | the loop over the roots keeps every path on at most one record |
| RepairProofs.ExecKeepsPathsUnique | src/tmsu/cli/commands/repair.go:78-112 | a whole run, whether or not it ends in an error, keeps every path on at most one record |
| RepairProofs.MoveOntoTrackedPathFails | src/tmsu/cli/commands/repair.go:242-261 | candidates are not filtered against the catalog: when the first match is another record's path, the move is refused and the run ends with the catalog unchanged |
| RepairProofs.FirstTaggingAppendOther | src/tmsu/cli/commands/repair.go:208 | appending a row for another (file, tag) pair does not change the lookup |
| RepairProofs.MissingImplicitIgnoresOtherTags | src/tmsu/cli/commands/repair.go:207-221 | adding an implicit tagging for one tag does not change which other tags need one |
| RepairProofs.TagChildAddsExactlyMissing | src/tmsu/cli/commands/repair.go:207-221 | for distinct tags, the rows added are exactly one implicit tagging per tag whose lookup found nothing or an explicit tagging, in tag order |
| RepairProofs.TagChildReportsEachAddition | src/tmsu/cli/commands/repair.go:213-214 | for distinct tags, each added implicit tagging is reported exactly once, in the same order |
| RepairProofs.ExplicitTaggingRepeatsImplicit | src/tmsu/cli/commands/repair.go:213 | when the first row for a (child, tag) pair is explicit, reconciling the child twice adds two implicit taggings |
| RepairProofs.CheckedDirectoryChildrenTagged | src/tmsu/cli/commands/repair.go:160-170 | after an existing directory is checked without error, modified or not, every child on disk is tracked and implicitly tagged with every tag the directory had |
| RepairProofs.ExecWithoutRoots | src/tmsu/cli/commands/repair.go:92-111 | with no path arguments, nothing is checked, changed or reported |
| RepairProofs.ExecIndexFailureChangesNothing | src/tmsu/cli/commands/repair.go:81-84 | a fatal index-build error ends the run before any entry is checked: catalog unchanged, the failing root reported |
| RepairProofs.CheckRootsScope | src/tmsu/cli/commands/repair.go:92-109 | the loop over roots deletes nothing, only appends rows, and changes only records that lay below one of the roots |
| RepairProofs.ExecChangesOnlyEntriesUnderRoots | src/tmsu/cli/commands/repair.go:78-112 | a run deletes no record and no row, and the only existing records it changes lay below a requested root when the run began |
| RepairProofs.CheckEntrySyncsRecord | src/tmsu/cli/commands/repair.go:114-173 | checking an entry that can be stat'ed, without error, leaves its record on its path with the modification second and size on disk |
| RepairProofs.CheckEntriesStopsAtFailure | src/tmsu/cli/commands/repair.go:103-108 | a failed entry loop is the error-free loop over the entries before some entry k, followed by entry k's failing check: earlier updates stay and later entries are not checked |
| RepairProofs.CheckEntriesSyncsRecords | src/tmsu/cli/commands/repair.go:103-108 | after a root's entries are checked without error, every listed entry that can be stat'ed keeps its path and agrees with the disk |
| RepairProofs.CheckRootsSyncsRecords | src/tmsu/cli/commands/repair.go:92-109 | after the loop over roots succeeds, every record below a root that can be stat'ed at its path keeps that path and agrees with the disk |
| RepairProofs.ExecSyncsRecords | src/tmsu/cli/commands/repair.go:78-112 | a run without error leaves every record below a requested root that can be stat'ed at its path on that path, with the modification second and size on disk |

## Left out

- Path resolution by `filepath.Abs` (lines 93-96, 301-304) is left out. Roots are given as absolute paths, so the working-directory error path does not exist in the model.
- Opening the store (lines 86-90) is left out, and so is every catalog error except one. Storage internals are outside the model. Catalog queries, `AddFile` and `AddImplicitFileTag` are total sequence operations that never fail.
- Storage.UpdateFile: the one catalog error modelled is the unique-path constraint, a write that would give two records the same path. Other database failures of that call are not modelled.
- The storage queries are outside repair.go, so their semantics are assumed:
  - `FilesByDirectory` returns the records strictly below the path, in id order.
  - `FileByPath` and `FileTagByFileIdAndTagId` return the first matching row.
  - `TagsByFileId(id, false)` returns every tag of the file once, in the order it first appears.
- `cli.AddFile` is outside repair.go. `Repair.AddChild` assumes it stats the path, fingerprints it, and appends a record. Either failure ends the run.
- Verbose-only output is left out, because it changes no state. So is all message text. This includes the "new" report, the missing argument of the warning at line 285, and the stray print at line 313. `WarnRootPermissionDenied` carries the root even though that message does not print it.
- Command metadata (lines 39-76) and option parsing (line 79) are left out: they are not repair logic.
- Unclosed file handles are left out: with no real files there are none.
- The fingerprint algorithm is left out. It is the uninterpreted parameter `Env.fingerprint`.
- Filesystem changes during a run are left out: the filesystem is one immutable map. For the same reason, symlink cycles cannot be expressed: a finite map holds only finitely many paths.
- 64-bit sizes are unbounded `nat`. Sizes on disk are never negative, and the code does no arithmetic on them, so overflow is not modelled.
- Under the storage semantics assumed above, idempotence across whole runs is not claimed, because the code does not guarantee it. `RepairProofs.ExplicitTaggingRepeatsImplicit` shows why, for two reconciliations (two `TagChild` calls) of one child: when the first row for a (child, tag) pair is explicit, each adds another implicit tagging. The lemma is about those two calls, not about two whole runs.
- Repair.CheckEntry: its contract is a frame (which records may change). What each classification does to the entry's own record is stated by the `RepairProofs` lemmas on classification and move resolution. The effect of a successful run on the records is stated by `RepairProofs.ExecSyncsRecords`.

=== FILE: candidate_index.dfy ===
/**
 The candidate index of a repair run (buildFileSystemMap and
 buildFileSystemMapRecursive): every non-empty regular file reachable from
 the requested roots, grouped by size, in enumeration order.
 */
module CandidateIndex {
  import opened Results
  import opened FileSystem

  /** Paths of non-empty files keyed by their size. */
  type Index = map<nat, seq<Path>>

  /** A file the walk found, with the size it reported. */
  datatype Candidate = Candidate(path: Path, size: nat)

  /** The list kept under `size`, empty when the key is absent. */
  function Candidates(idx: Index, size: nat): seq<Path> {
    if size in idx then idx[size] else []
  }

  /** Append one file to the list for its size. */
  function AddCandidate(idx: Index, c: Candidate): Index {
    idx[c.size := Candidates(idx, c.size) + [c.path]]
  }

  /** Add files one after another, in order. */
  function Insert(idx: Index, cs: seq<Candidate>): Index
    decreases |cs|
  {
    if cs == [] then idx else Insert(AddCandidate(idx, cs[0]), cs[1..])
  }

  /** The paths of `cs` whose size is `size`, in their order in `cs`. */
  function WithSize(cs: seq<Candidate>, size: nat): seq<Path>
    decreases |cs|
  {
    if cs == [] then []
    else (if cs[0].size == size then [cs[0].path] else []) + WithSize(cs[1..], size)
  }

  /**
   The paths of `fs` at least as long as `p`. It is the termination measure
   of the walk: it loses `dir` itself when the walk descends into a child.
   */
  function AtLeastAsDeep(fs: Fs, p: Path): set<Path> {
    set q | q in fs && |p| <= |q|
  }

  lemma DeeperShrinks(fs: Fs, dir: Path, name: Name)
    requires dir in fs
    ensures AtLeastAsDeep(fs, Join(dir, name)) < AtLeastAsDeep(fs, dir)
  {
    assert dir in AtLeastAsDeep(fs, dir) && dir !in AtLeastAsDeep(fs, Join(dir, name));
  }

  /** What one recursive call leaves behind: the (shared) index and the error it returned. */
  datatype Step = Step(index: Index, error: Option<FsError>)

  /**
   buildFileSystemMapRecursive: open and stat `p`; a non-empty regular file
   is appended to the list for its size, a directory is descended into, and
   an error from a child is dropped.
   */
  function BuildFileSystemMapRecursive(fs: Fs, p: Path, idx: Index): Step
    decreases AtLeastAsDeep(fs, p), 1, 0
  {
    match OpenForWalk(fs, p)
    case Err(e) => Step(idx, Some(e))
    case Ok(OpenedFile(size)) =>
      Step(if size > 0 then AddCandidate(idx, Candidate(p, size)) else idx, None)
    case Ok(OpenedDir(names)) => Step(BuildChildren(fs, p, names, idx), None)
  }

  /** The loop over a directory's entries; each recursive call's error is ignored. */
  function BuildChildren(fs: Fs, dir: Path, names: seq<Name>, idx: Index): Index
    requires dir in fs
    decreases AtLeastAsDeep(fs, dir), 0, |names|
  {
    if names == [] then idx
    else
      DeeperShrinks(fs, dir, names[0]);
      var step := BuildFileSystemMapRecursive(fs, Join(dir, names[0]), idx);
      BuildChildren(fs, dir, names[1..], step.index)
  }

  /** What the whole build reports: the index, the roots skipped for lack of permission, and a fatal root error. */
  datatype Build = Build(index: Index, skipped: seq<Path>, failure: Option<(Path, FsError)>)

  /**
   buildFileSystemMap: walk each root in turn into one shared index. A
   permission error on a root skips that root; any other root error ends
   the build with no index.
   */
  function BuildFileSystemMap(fs: Fs, roots: seq<Path>): Build {
    BuildRoots(fs, roots, map[], [])
  }

  function BuildRoots(fs: Fs, roots: seq<Path>, idx: Index, skipped: seq<Path>): Build
    decreases |roots|
  {
    if roots == [] then Build(idx, skipped, None)
    else
      var step := BuildFileSystemMapRecursive(fs, roots[0], idx);
      match step.error
      case None => BuildRoots(fs, roots[1..], step.index, skipped)
      case Some(PermissionDenied) => BuildRoots(fs, roots[1..], step.index, skipped + [roots[0]])
      case Some(e) => Build(map[], skipped, Some((roots[0], e)))
  }

  // ---------------------------------------------------------------------
  // A reference enumeration, independent of the shared accumulator.
  // ---------------------------------------------------------------------

  /**
   The files the walk from `p` finds, in enumeration order. Only `p`'s own
   open, stat or listing can make it fail: errors below it are dropped.
   */
  function Walk(fs: Fs, p: Path): (r: Result<seq<Candidate>, FsError>)
    ensures r.Err? <==> OpenForWalk(fs, p).Err?
    decreases AtLeastAsDeep(fs, p), 1, 0
  {
    match OpenForWalk(fs, p)
    case Err(e) => Err(e)
    case Ok(OpenedFile(size)) => Ok(if size > 0 then [Candidate(p, size)] else [])
    case Ok(OpenedDir(names)) => Ok(WalkChildren(fs, p, names))
  }

  function WalkChildren(fs: Fs, dir: Path, names: seq<Name>): seq<Candidate>
    requires dir in fs
    decreases AtLeastAsDeep(fs, dir), 0, |names|
  {
    if names == [] then []
    else
      DeeperShrinks(fs, dir, names[0]);
      var found := match Walk(fs, Join(dir, names[0])) case Ok(cs) => cs case Err(_) => [];
      found + WalkChildren(fs, dir, names[1..])
  }

  /** What walking all roots finds, which roots it skips, and the root error that stops it. */
  datatype Survey = Survey(found: seq<Candidate>, skipped: seq<Path>, failure: Option<(Path, FsError)>)

  function SurveyRoots(fs: Fs, roots: seq<Path>): Survey
    decreases |roots|
  {
    if roots == [] then Survey([], [], None)
    else
      var rest := SurveyRoots(fs, roots[1..]);
      match Walk(fs, roots[0])
      case Ok(cs) => rest.(found := cs + rest.found)
      case Err(PermissionDenied) => rest.(skipped := [roots[0]] + rest.skipped)
      case Err(e) => Survey([], [], Some((roots[0], e)))
  }

  /** A candidate is a non-empty, openable regular file of `fs` of exactly the recorded size. */
  predicate IsCandidate(fs: Fs, c: Candidate) {
    c.path in fs && fs[c.path].RegularFile? && fs[c.path].openError.None? &&
    fs[c.path].size == c.size && c.size > 0
  }

  /** Every path the index holds is a non-empty regular file filed under its own size. */
  predicate SoundIndex(fs: Fs, idx: Index) {
    forall size | size in idx ::
      forall k | 0 <= k < |idx[size]| :: IsCandidate(fs, Candidate(idx[size][k], size))
  }
}

=== FILE: candidate_index_proofs.dfy ===
/**
 What the candidate index holds: the shared-accumulator build agrees with
 the reference enumeration, so each size maps to exactly the non-empty
 files of that size in walk order, and root errors behave as the driver
 expects.
 */
module CandidateIndexProofs {
  import opened Results
  import opened FileSystem
  import opened CandidateIndex

  lemma {:induction false} InsertAppend(idx: Index, a: seq<Candidate>, b: seq<Candidate>)
    ensures Insert(idx, a + b) == Insert(Insert(idx, a), b)
    decreases |a|
  {
    if a == [] {
      assert a + b == b;
    } else {
      assert (a + b)[0] == a[0] && (a + b)[1..] == a[1..] + b;
      InsertAppend(AddCandidate(idx, a[0]), a[1..], b);
    }
  }

  /** Inserting files appends, under each size, exactly the inserted paths of that size, in order. */
  lemma {:induction false} InsertLookup(idx: Index, cs: seq<Candidate>, size: nat)
    ensures Candidates(Insert(idx, cs), size) == Candidates(idx, size) + WithSize(cs, size)
    decreases |cs|
  {
    if cs != [] {
      var idx' := AddCandidate(idx, cs[0]);
      InsertLookup(idx', cs[1..], size);
      assert Candidates(idx', size) ==
        Candidates(idx, size) + (if cs[0].size == size then [cs[0].path] else []);
    }
  }

  /** A size is a key after inserting exactly when it was one before or an inserted file has it. */
  lemma {:induction false} InsertKeys(idx: Index, cs: seq<Candidate>, size: nat)
    ensures size in Insert(idx, cs) <==> size in idx || exists i | 0 <= i < |cs| :: cs[i].size == size
    decreases |cs|
  {
    if cs != [] {
      InsertKeys(AddCandidate(idx, cs[0]), cs[1..], size);
      if exists i | 0 <= i < |cs[1..]| :: cs[1..][i].size == size {
        var i :| 0 <= i < |cs[1..]| && cs[1..][i].size == size;
        assert cs[i + 1].size == size;
      }
      if exists i | 0 <= i < |cs| :: cs[i].size == size {
        var i :| 0 <= i < |cs| && cs[i].size == size;
        if i > 0 {
          assert cs[1..][i - 1].size == size;
        }
      }
    }
  }

  /** Each path filed under `size` comes from an inserted file of that size. */
  lemma {:induction false} WithSizeFrom(cs: seq<Candidate>, size: nat)
    ensures forall j | 0 <= j < |WithSize(cs, size)| :: Candidate(WithSize(cs, size)[j], size) in cs
    decreases |cs|
  {
    if cs != [] {
      WithSizeFrom(cs[1..], size);
      var head := if cs[0].size == size then [cs[0].path] else [];
      var tail := WithSize(cs[1..], size);
      assert WithSize(cs, size) == head + tail;
      forall j | 0 <= j < |head + tail|
        ensures Candidate((head + tail)[j], size) in cs
      {
        if j >= |head| {
          assert (head + tail)[j] == tail[j - |head|];
          assert Candidate(tail[j - |head|], size) in cs[1..];
        }
      }
    }
  }

  /**
   The recursive build with its shared map adds exactly what the reference
   walk enumerates, in the same order, and fails exactly when the walk does,
   leaving the map untouched.
   */
  lemma {:induction false} BuildMatchesWalk(fs: Fs, p: Path, idx: Index)
    ensures var w := Walk(fs, p);
      BuildFileSystemMapRecursive(fs, p, idx) ==
        if w.Err? then Step(idx, Some(w.error)) else Step(Insert(idx, w.value), None)
    decreases AtLeastAsDeep(fs, p), 1, 0
  {
    match OpenForWalk(fs, p)
    case Err(e) =>
    case Ok(OpenedFile(size)) =>
    case Ok(OpenedDir(names)) =>
      BuildChildrenMatchesWalk(fs, p, names, idx);
  }

  lemma {:induction false} BuildChildrenMatchesWalk(fs: Fs, dir: Path, names: seq<Name>, idx: Index)
    requires dir in fs
    ensures BuildChildren(fs, dir, names, idx) == Insert(idx, WalkChildren(fs, dir, names))
    decreases AtLeastAsDeep(fs, dir), 0, |names|
  {
    if names != [] {
      var child := Join(dir, names[0]);
      DeeperShrinks(fs, dir, names[0]);
      BuildMatchesWalk(fs, child, idx);
      var found := match Walk(fs, child) case Ok(cs) => cs case Err(_) => [];
      var step := BuildFileSystemMapRecursive(fs, child, idx);
      assert step.index == Insert(idx, found);
      BuildChildrenMatchesWalk(fs, dir, names[1..], step.index);
      InsertAppend(idx, found, WalkChildren(fs, dir, names[1..]));
    }
  }

  /** Everything a walk finds is a non-empty openable regular file at or below the starting path. */
  lemma {:induction false} WalkSound(fs: Fs, p: Path)
    ensures Walk(fs, p).Ok? ==>
      forall k | 0 <= k < |Walk(fs, p).value| ::
        IsCandidate(fs, Walk(fs, p).value[k]) && p <= Walk(fs, p).value[k].path
    decreases AtLeastAsDeep(fs, p), 1, 0
  {
    match OpenForWalk(fs, p)
    case Err(e) =>
    case Ok(OpenedFile(size)) =>
    case Ok(OpenedDir(names)) =>
      WalkChildrenSound(fs, p, names);
  }

  lemma {:induction false} WalkChildrenSound(fs: Fs, dir: Path, names: seq<Name>)
    requires dir in fs
    ensures forall k | 0 <= k < |WalkChildren(fs, dir, names)| ::
      IsCandidate(fs, WalkChildren(fs, dir, names)[k]) && Within(WalkChildren(fs, dir, names)[k].path, dir)
    decreases AtLeastAsDeep(fs, dir), 0, |names|
  {
    if names != [] {
      var child := Join(dir, names[0]);
      DeeperShrinks(fs, dir, names[0]);
      WalkSound(fs, child);
      WalkChildrenSound(fs, dir, names[1..]);
      var found := match Walk(fs, child) case Ok(cs) => cs case Err(_) => [];
      var all := WalkChildren(fs, dir, names);
      assert all == found + WalkChildren(fs, dir, names[1..]);
      forall k | 0 <= k < |all|
        ensures IsCandidate(fs, all[k]) && Within(all[k].path, dir)
      {
        if k < |found| {
          assert child <= all[k].path;
          assert all[k].path[..|dir|] == child[..|dir|];
        }
      }
    }
  }

  /** The build of all roots, with its accumulated map and skip list, agrees with the reference survey. */
  lemma {:induction false} BuildRootsMatchesSurvey(fs: Fs, roots: seq<Path>, idx: Index, skipped: seq<Path>)
    ensures var b := BuildRoots(fs, roots, idx, skipped); var s := SurveyRoots(fs, roots);
      b.failure == s.failure && b.skipped == skipped + s.skipped &&
      b.index == (if s.failure.None? then Insert(idx, s.found) else map[])
    decreases |roots|
  {
    if roots != [] {
      var root := roots[0];
      BuildMatchesWalk(fs, root, idx);
      match Walk(fs, root)
      case Ok(cs) =>
        BuildRootsMatchesSurvey(fs, roots[1..], Insert(idx, cs), skipped);
        InsertAppend(idx, cs, SurveyRoots(fs, roots[1..]).found);
      case Err(e) =>
        if e == PermissionDenied {
          BuildRootsMatchesSurvey(fs, roots[1..], idx, skipped + [root]);
        }
    }
  }

  /** Every file the survey finds is a non-empty regular file below one of the roots. */
  lemma {:induction false} SurveySound(fs: Fs, roots: seq<Path>)
    ensures forall c | c in SurveyRoots(fs, roots).found ::
      IsCandidate(fs, c) && exists r | r in roots :: r <= c.path
    decreases |roots|
  {
    if roots != [] {
      SurveySound(fs, roots[1..]);
      WalkSound(fs, roots[0]);
      var rest := SurveyRoots(fs, roots[1..]);
      forall c | c in rest.found
        ensures exists r | r in roots :: r <= c.path
      {
        var r :| r in roots[1..] && r <= c.path;
        assert r in roots;
      }
      if Walk(fs, roots[0]).Ok? {
        var cs := Walk(fs, roots[0]).value;
        forall c | c in cs
          ensures IsCandidate(fs, c) && roots[0] <= c.path
        {
          var k :| 0 <= k < |cs| && cs[k] == c;
        }
        assert roots[0] in roots;
        var s := SurveyRoots(fs, roots);
        assert s.found == cs + rest.found;
        assert forall c | c in s.found :: c in cs || c in rest.found;
      }
    }
  }

  /** A root error is fatal unless it is a permission error. */
  predicate Fatal(w: Result<seq<Candidate>, FsError>) {
    w.Err? && w.error != PermissionDenied
  }

  /** The roots whose walk is refused for lack of permission, in order. */
  function DeniedRoots(fs: Fs, roots: seq<Path>): seq<Path>
    decreases |roots|
  {
    if roots == [] then []
    else (if Walk(fs, roots[0]) == Err(PermissionDenied) then [roots[0]] else []) + DeniedRoots(fs, roots[1..])
  }

  /**
   The survey fails exactly at the first root whose walk fails fatally. It
   skips the permission-denied roots before that root, or all of them when
   no root is fatal, in order.
   */
  lemma {:induction false} SurveyFailure(fs: Fs, roots: seq<Path>)
    ensures var s := SurveyRoots(fs, roots);
      (s.failure.None? <==> forall i | 0 <= i < |roots| :: !Fatal(Walk(fs, roots[i]))) &&
      (s.failure.None? ==> s.skipped == DeniedRoots(fs, roots)) &&
      (s.failure.Some? ==> exists i | 0 <= i < |roots| ::
        (Fatal(Walk(fs, roots[i])) && s.failure.value == (roots[i], Walk(fs, roots[i]).error) &&
         s.skipped == DeniedRoots(fs, roots[..i]) &&
         forall j | 0 <= j < i :: !Fatal(Walk(fs, roots[j]))))
    decreases |roots|
  {
    if roots != [] {
      SurveyFailure(fs, roots[1..]);
      var s := SurveyRoots(fs, roots);
      var rest := SurveyRoots(fs, roots[1..]);
      var head := if Walk(fs, roots[0]) == Err(PermissionDenied) then [roots[0]] else [];
      if !Fatal(Walk(fs, roots[0])) {
        assert s.failure == rest.failure && s.skipped == head + rest.skipped;
        if rest.failure.None? {
          forall i | 0 <= i < |roots|
            ensures !Fatal(Walk(fs, roots[i]))
          {
            if i > 0 {
              assert roots[i] == roots[1..][i - 1];
            }
          }
        } else {
          var i :| 0 <= i < |roots[1..]| &&
            Fatal(Walk(fs, roots[1..][i])) &&
            rest.failure.value == (roots[1..][i], Walk(fs, roots[1..][i]).error) &&
            rest.skipped == DeniedRoots(fs, roots[1..][..i]) &&
            forall j | 0 <= j < i :: !Fatal(Walk(fs, roots[1..][j]));
          assert roots[i + 1] == roots[1..][i];
          assert roots[..i + 1][0] == roots[0] && roots[..i + 1][1..] == roots[1..][..i];
          assert s.skipped == DeniedRoots(fs, roots[..i + 1]);
          forall j | 0 <= j < i + 1
            ensures !Fatal(Walk(fs, roots[j]))
          {
            if j > 0 {
              assert roots[j] == roots[1..][j - 1];
            }
          }
        }
      } else {
        assert roots[..0] == [];
      }
    }
  }

  /**
   buildFileSystemMap's result: it fails at the first fatal root and then
   yields no index; otherwise each size maps to the non-empty regular files
   of that size found under the roots, in walk order, and nothing else.
   */
  lemma BuildFileSystemMapSpec(fs: Fs, roots: seq<Path>)
    ensures var b := BuildFileSystemMap(fs, roots); var s := SurveyRoots(fs, roots);
      b.failure == s.failure && b.skipped == s.skipped &&
      (b.failure.Some? ==> b.index == map[]) &&
      (b.failure.None? ==> forall size :: Candidates(b.index, size) == WithSize(s.found, size))
    ensures var b := BuildFileSystemMap(fs, roots);
      b.failure.None? ==> SoundIndex(fs, b.index) && 0 !in b.index
  {
    var b := BuildFileSystemMap(fs, roots);
    var s := SurveyRoots(fs, roots);
    BuildRootsMatchesSurvey(fs, roots, map[], []);
    assert [] + s.skipped == s.skipped;
    if b.failure.None? {
      forall size
        ensures Candidates(b.index, size) == WithSize(s.found, size)
      {
        InsertLookup(map[], s.found, size);
      }
      SurveySound(fs, roots);
      forall size | size in b.index
        ensures forall k | 0 <= k < |b.index[size]| :: IsCandidate(fs, Candidate(b.index[size][k], size))
      {
        WithSizeFrom(s.found, size);
        InsertLookup(map[], s.found, size);
        forall k | 0 <= k < |b.index[size]|
          ensures IsCandidate(fs, Candidate(b.index[size][k], size))
        {
          assert b.index[size][k] == WithSize(s.found, size)[k];
          assert Candidate(WithSize(s.found, size)[k], size) in s.found;
        }
      }
      InsertKeys(map[], s.found, 0);
      assert forall i | 0 <= i < |s.found| :: s.found[i] in s.found;
    }
  }
}

=== FILE: filesystem.dfy ===
/**
 An abstract, immutable filesystem: the answers that os.Stat, os.Open,
 Readdir and Readdirnames would give for each absolute path. Nothing on
 disk changes while a repair runs, so one map answers every question.
 */
module FileSystem {
  import opened Results

  /** One component of a path, as Readdirnames reports it. */
  type Name = string

  /** An absolute path as its sequence of components; [] is the root directory. */
  type Path = seq<Name>

  /** A modification time in nanoseconds since the Unix epoch. */
  type Timestamp = int

  const NanosPerSecond: int := 1_000_000_000

  /**
   Whole seconds of a timestamp, as Go's Time.Unix gives them: rounded
   toward negative infinity. Dafny's `/` with a positive divisor floors,
   so this agrees with Go also before the epoch.
   */
  function UnixSeconds(t: Timestamp): int {
    t / NanosPerSecond
  }

  /** filepath.Join of a directory and one child name. */
  function Join(dir: Path, name: Name): Path {
    dir + [name]
  }

  /** Join never maps two different (directory, name) pairs to one path. */
  lemma JoinInjective(dir1: Path, name1: Name, dir2: Path, name2: Name)
    requires Join(dir1, name1) == Join(dir2, name2)
    ensures dir1 == dir2 && name1 == name2
  {
    assert |dir1| == |dir2|;
    assert dir1 == Join(dir1, name1)[..|dir1|];
    assert name1 == Join(dir1, name1)[|dir1|];
  }

  /** The error kinds the repair engine tells apart (os.IsNotExist, os.IsPermission, anything else). */
  datatype FsError = NotExist | PermissionDenied | NotADirectory | OtherError

  /**
   What the filesystem holds at one path. A regular file can be stat'ed but
   may refuse to be opened; a directory can be stat'ed but its listing may
   fail; an inaccessible node cannot even be stat'ed.
   */
  datatype Node =
    | RegularFile(modTime: Timestamp, size: nat, openError: Option<FsError>)
    | Directory(modTime: Timestamp, size: nat, listing: Result<seq<Name>, FsError>)
    | Inaccessible(statError: FsError)

  /** Paths that are not keys do not exist. */
  type Fs = map<Path, Node>

  /** The part of os.FileInfo the repair engine reads. */
  datatype FileInfo = FileInfo(modTime: Timestamp, size: nat, isDir: bool)

  /** os.Stat. */
  function Stat(fs: Fs, p: Path): Result<FileInfo, FsError> {
    if p !in fs then Err(NotExist)
    else match fs[p]
      case Inaccessible(e) => Err(e)
      case RegularFile(m, s, _) => Ok(FileInfo(m, s, false))
      case Directory(m, s, _) => Ok(FileInfo(m, s, true))
  }

  /** os.Open followed by Readdirnames: the child names of a directory. */
  function ReadDirNames(fs: Fs, p: Path): Result<seq<Name>, FsError> {
    if p !in fs then Err(NotExist)
    else match fs[p]
      case Inaccessible(e) => Err(e)
      case RegularFile(_, _, openError) =>
        if openError.Some? then Err(openError.value) else Err(NotADirectory)
      case Directory(_, _, listing) => listing
  }

  /** What the index walk learns from one path once it has been opened and stat'ed. */
  datatype Opened = OpenedFile(size: nat) | OpenedDir(names: seq<Name>)

  /**
   os.Open, then os.Stat, then (for a directory) Readdir: the first of
   these to fail decides the error.
   */
  function OpenForWalk(fs: Fs, p: Path): Result<Opened, FsError> {
    if p !in fs then Err(NotExist)
    else match fs[p]
      case Inaccessible(e) => Err(e)
      case RegularFile(_, s, openError) =>
        if openError.Some? then Err(openError.value) else Ok(OpenedFile(s))
      case Directory(_, _, listing) =>
        match listing
        case Err(e) => Err(e)
        case Ok(names) => Ok(OpenedDir(names))
  }

  /** `p` lies strictly below `dir`. */
  predicate Within(p: Path, dir: Path) {
    |dir| < |p| && p[..|dir|] == dir
  }
}

=== FILE: repair.dfy ===
/**
 The repair command: classify each tracked entry under the requested
 roots against the filesystem, re-fingerprint modified files, relocate
 missing files by size and fingerprint, and register the children of
 tracked directories with implicit taggings. Every operation is a pure
 function from (filesystem, catalog) to the new catalog, the reports it
 printed, and the error that stopped it, if any.
 */
module Repair {
  import opened Results
  import opened FileSystem
  import opened Storage
  import opened CandidateIndex

  /** The world outside the catalog: the filesystem and the content fingerprint function (None when it fails). */
  datatype Env = Env(fs: Fs, fingerprint: Path -> Option<string>)

  /** The non-verbose reports: status lines on standard output and warnings. */
  datatype Event =
    | ReportModified(path: Path)
    | ReportMoved(path: Path, to: Path)
    | ReportImplicitTagging(path: Path, tag: TagId)
    | WarnPermissionDenied(path: Path)
    | WarnStatError(path: Path, error: FsError)
    | WarnMissing(path: Path)
    | WarnRootPermissionDenied(path: Path)

  /** An error that ends the run. */
  datatype Failure =
    | FsFailure(path: Path, error: FsError)
    | FingerprintFailure(path: Path)
    | StoreFailure(refused: StoreError)

  /**
   The catalog after an operation, what it reported, and the error it
   returned. Changes made before an error stay in the catalog: each update
   is committed on its own.
   */
  datatype Outcome = Outcome(catalog: Catalog, log: seq<Event>, failure: Option<Failure>)

  function Prepend(log: seq<Event>, o: Outcome): Outcome {
    o.(log := log + o.log)
  }

  // ---------------------------------------------------------------------
  // checkEntry
  // ---------------------------------------------------------------------

  /** The state checkEntry assigns to a tracked entry from its stat result. */
  datatype Status =
    | Missing
    | SkipPermission
    | SkipError(error: FsError)
    | Changed(info: FileInfo)
    | Unchanged(info: FileInfo)

  /** A stat result agrees with a record when whole seconds of the modification time and the size match. */
  predicate SameOnDisk(info: FileInfo, file: FileRecord) {
    UnixSeconds(info.modTime) == UnixSeconds(file.modTime) && info.size == file.size
  }

  function Classify(stat: Result<FileInfo, FsError>, file: FileRecord): (s: Status)
    ensures s.Missing? <==> stat == Err(NotExist)
    ensures s.SkipPermission? <==> stat == Err(PermissionDenied)
    ensures s.Unchanged? <==> stat.Ok? && SameOnDisk(stat.value, file)
    ensures s.Changed? <==> stat.Ok? && !SameOnDisk(stat.value, file)
    ensures (s.Changed? || s.Unchanged?) ==> s.info == stat.value
  {
    match stat
    case Err(NotExist) => Missing
    case Err(PermissionDenied) => SkipPermission
    case Err(e) => SkipError(e)
    case Ok(info) =>
      if UnixSeconds(info.modTime) != UnixSeconds(file.modTime) || info.size != file.size
      then Changed(info)
      else Unchanged(info)
  }

  /** checkEntry. */
  function CheckEntry(env: Env, idx: Index, entry: Entry, c: Catalog): (r: Outcome)
    ensures OthersUnchanged(c, r.catalog, entry.id) && c.taggings <= r.catalog.taggings
  {
    var path := entry.file.path;
    match Classify(Stat(env.fs, path), entry.file)
    case Missing => ProcessMissingEntry(env, idx, entry, c)
    case SkipPermission => Outcome(c, [WarnPermissionDenied(path)], None)
    case SkipError(e) => Outcome(c, [WarnStatError(path, e)], None)
    case Unchanged(info) => ReconcileIfDirectory(env, entry, info, c, [])
    case Changed(info) =>
      match env.fingerprint(path)
      case None => Outcome(c, [], Some(FingerprintFailure(path)))
      case Some(fp) =>
        match UpdateFile(c, entry.id, FileRecord(path, fp, info.modTime, info.size))
        case Err(e) => Outcome(c, [], Some(StoreFailure(e)))
        case Ok(c') => ReconcileIfDirectory(env, entry, info, c', [ReportModified(path)])
  }

  /** The tail of checkEntry: a directory is reconciled whether or not it changed. */
  function ReconcileIfDirectory(env: Env, entry: Entry, info: FileInfo, c: Catalog, log: seq<Event>): (r: Outcome)
    ensures AppendOnly(c, r.catalog) && log <= r.log
    ensures !info.isDir ==> r == Outcome(c, log, None)
  {
    if info.isDir then
      Prepend(log, ProcessDirectory(env, c, entry, TagsByFileId(c, entry.id, false)))
    else
      Outcome(c, log, None)
  }

  // ---------------------------------------------------------------------
  // processMissingEntry
  // ---------------------------------------------------------------------

  /** processMissingEntry: look for the entry's content among the candidates of its size. */
  function ProcessMissingEntry(env: Env, idx: Index, entry: Entry, c: Catalog): (r: Outcome)
    ensures OthersUnchanged(c, r.catalog, entry.id) && |r.catalog.files| == |c.files|
    ensures r.catalog.taggings == c.taggings
  {
    if entry.file.fingerprint == "" then Outcome(c, [], None)
    else SearchCandidates(env, Candidates(idx, entry.file.size), entry, c)
  }

  /** The loop over same-size candidates: the first with an equal fingerprint wins. */
  function SearchCandidates(env: Env, paths: seq<Path>, entry: Entry, c: Catalog): (r: Outcome)
    ensures OthersUnchanged(c, r.catalog, entry.id) && |r.catalog.files| == |c.files|
    ensures r.catalog.taggings == c.taggings
    decreases |paths|
  {
    if paths == [] then Outcome(c, [WarnMissing(entry.file.path)], None)
    else
      var candidate := paths[0];
      match env.fingerprint(candidate)
      case None => Outcome(c, [], Some(FingerprintFailure(candidate)))
      case Some(fp) =>
        if fp != entry.file.fingerprint then SearchCandidates(env, paths[1..], entry, c)
        else
          match Stat(env.fs, candidate)
          case Err(e) => Outcome(c, [], Some(FsFailure(candidate, e)))
          case Ok(info) =>
            var moved := FileRecord(candidate, entry.file.fingerprint, info.modTime, info.size);
            match UpdateFile(c, entry.id, moved)
            case Err(e) => Outcome(c, [], Some(StoreFailure(e)))
            case Ok(c') => Outcome(c', [ReportMoved(entry.file.path, candidate)], None)
  }

  // ---------------------------------------------------------------------
  // processDirectory
  // ---------------------------------------------------------------------

  /** The child is tracked and carries an implicit tagging for every tag in `tags`. */
  predicate ChildReconciled(c: Catalog, child: Path, tags: seq<TagId>) {
    FileByPath(c, child).Some? &&
    forall t | t in tags :: HasImplicit(c, FileByPath(c, child).value, t)
  }

  /** Rows appended after the first `from` rows are implicit taggings with one of `tags`. */
  predicate NewTaggingsImplicit(c: Catalog, from: nat, tags: seq<TagId>) {
    forall i | from <= i < |c.taggings| :: c.taggings[i].implicit && c.taggings[i].tagId in tags
  }

  /** processDirectory: list the directory and reconcile each child. */
  function ProcessDirectory(env: Env, c: Catalog, entry: Entry, tags: seq<TagId>): (r: Outcome)
    ensures AppendOnly(c, r.catalog)
    ensures forall e | e in r.log :: e.ReportImplicitTagging?
    ensures r.failure.Some? ==> !r.failure.value.StoreFailure?
    ensures ReadDirNames(env.fs, entry.file.path).Ok? &&
      (forall n | n in ReadDirNames(env.fs, entry.file.path).value :: Registrable(env, Join(entry.file.path, n)))
      ==> r.failure.None?
  {
    match ReadDirNames(env.fs, entry.file.path)
    case Err(e) => Outcome(c, [], Some(FsFailure(entry.file.path, e)))
    case Ok(names) => ReconcileChildren(env, c, entry.file.path, names, tags)
  }

  /** The loop over child names; it stops at the first error. */
  function ReconcileChildren(env: Env, c: Catalog, dir: Path, names: seq<Name>, tags: seq<TagId>): (r: Outcome)
    ensures AppendOnly(c, r.catalog)
    ensures forall e | e in r.log :: e.ReportImplicitTagging?
    ensures NewTaggingsImplicit(r.catalog, |c.taggings|, tags)
    ensures forall i | |c.files| <= i < |r.catalog.files| ::
      exists n | n in names :: r.catalog.files[i].path == Join(dir, n)
    ensures forall i | |c.files| <= i < |r.catalog.files| ::
      Registrable(env, r.catalog.files[i].path) && r.catalog.files[i] == Registration(env, r.catalog.files[i].path)
    ensures r.failure.None? ==> forall n | n in names :: ChildReconciled(r.catalog, Join(dir, n), tags)
    ensures (forall n | n in names :: Registrable(env, Join(dir, n))) ==> r.failure.None?
    ensures r.failure.Some? ==> exists n | n in names ::
      (!Registrable(env, Join(dir, n)) && r.failure.value == AddFailure(env, Join(dir, n)))
    decreases |names|
  {
    if names == [] then Outcome(c, [], None)
    else
      var o := ReconcileChild(env, c, Join(dir, names[0]), tags);
      if o.failure.Some? then o
      else
        var rest := ReconcileChildren(env, o.catalog, dir, names[1..], tags);
        ChildReconciledStable(o.catalog, rest.catalog, Join(dir, names[0]), tags);
        assert forall n | n in names[1..] :: n in names;
        Prepend(o.log, rest)
  }

  /** One child: register it when it is not tracked, then add the implicit taggings it lacks. */
  function ReconcileChild(env: Env, c: Catalog, child: Path, tags: seq<TagId>): (r: Outcome)
    ensures AppendOnly(c, r.catalog)
    ensures forall e | e in r.log :: e.ReportImplicitTagging?
    ensures NewTaggingsImplicit(r.catalog, |c.taggings|, tags)
    ensures forall i | |c.files| <= i < |r.catalog.files| :: r.catalog.files[i].path == child
    ensures forall i | |c.files| <= i < |r.catalog.files| ::
      Registrable(env, child) && r.catalog.files[i] == Registration(env, child)
    ensures FileByPath(c, child).Some? ==> |r.catalog.files| == |c.files|
    ensures FileByPath(c, child).None? ==> |r.catalog.files| <= |c.files| + 1
    ensures FileByPath(c, child).None? && r.failure.None? ==> |r.catalog.files| == |c.files| + 1
    ensures r.failure.None? ==> ChildReconciled(r.catalog, child, tags)
    ensures r.failure.Some? <==> FileByPath(c, child).None? && !Registrable(env, child)
    ensures r.failure.Some? ==> r.catalog == c && r.failure.value == AddFailure(env, child)
  {
    match FileByPath(c, child)
    case Some(id) =>
      var r := TagChild(c, child, id, tags);
      FileByPathStable(c, r.catalog, child);
      r
    case None =>
      match AddChild(env, c, child)
      case Err(f) => Outcome(c, [], Some(f))
      case Ok(added) =>
        var r := TagChild(added.0, child, added.1, tags);
        assert FileByPath(added.0, child) == Some(added.1);
        FileByPathStable(added.0, r.catalog, child);
        r
  }

  /** A new child can be registered: it can be stat'ed and fingerprinted. */
  predicate Registrable(env: Env, child: Path) {
    Stat(env.fs, child).Ok? && env.fingerprint(child).Some?
  }

  /** The record registering `child` stores: its path, fingerprint, modification time and size. */
  function Registration(env: Env, child: Path): FileRecord
    requires Registrable(env, child)
  {
    var info := Stat(env.fs, child).value;
    FileRecord(child, env.fingerprint(child).value, info.modTime, info.size)
  }

  /** The error registering `child` returns: its stat error first, else the fingerprint failure. */
  function AddFailure(env: Env, child: Path): Failure {
    match Stat(env.fs, child)
    case Err(e) => FsFailure(child, e)
    case Ok(_) => FingerprintFailure(child)
  }

  /**
   cli.AddFile for a newly found child: stat it, fingerprint it, and
   append a record.
   */
  function AddChild(env: Env, c: Catalog, child: Path): (r: Result<(Catalog, FileId), Failure>)
    ensures r.Err? <==> !Registrable(env, child)
    ensures r.Err? ==> r.error == AddFailure(env, child)
    ensures r.Ok? ==>
      (r.value.1 == |c.files| && r.value.0.taggings == c.taggings &&
       |r.value.0.files| == |c.files| + 1 && c.files <= r.value.0.files &&
       r.value.0.files[r.value.1] == Registration(env, child))
  {
    match Stat(env.fs, child)
    case Err(e) => Err(FsFailure(child, e))
    case Ok(info) =>
      match env.fingerprint(child)
      case None => Err(FingerprintFailure(child))
      case Some(fp) => Ok(AddFile(c, FileRecord(child, fp, info.modTime, info.size)))
  }

  /** A tag lookup that finds nothing, or finds an explicit tagging, calls for a new implicit tagging. */
  predicate NeedsImplicit(c: Catalog, id: FileId, tag: TagId) {
    var found := FileTagByFileIdAndTagId(c, id, tag);
    found.None? || !found.value.implicit
  }

  /** The loop over the directory's tags for one child. */
  function TagChild(c: Catalog, child: Path, id: FileId, tags: seq<TagId>): (r: Outcome)
    ensures r.failure.None? && r.catalog.files == c.files && c.taggings <= r.catalog.taggings
    ensures forall e | e in r.log :: e.ReportImplicitTagging?
    ensures forall i | |c.taggings| <= i < |r.catalog.taggings| ::
      r.catalog.taggings[i] == Tagging(id, r.catalog.taggings[i].tagId, true) &&
      r.catalog.taggings[i].tagId in tags
    ensures forall t | t in tags :: HasImplicit(r.catalog, id, t)
    decreases |tags|
  {
    if tags == [] then Outcome(c, [], None)
    else
      var tag := tags[0];
      var (c', log) :=
        if NeedsImplicit(c, id, tag)
        then (AddImplicitFileTag(c, id, tag), [ReportImplicitTagging(child, tag)])
        else (c, []);
      assert HasImplicit(c', id, tag) by {
        if !NeedsImplicit(c, id, tag) {
          var found := FileTagByFileIdAndTagId(c, id, tag);
          assert found.value == Tagging(id, tag, true);
        }
      }
      var rest := TagChild(c', child, id, tags[1..]);
      assert HasImplicit(rest.catalog, id, tag);
      Prepend(log, rest)
  }

  /** Appending to the catalog keeps a reconciled child reconciled. */
  lemma ChildReconciledStable(c: Catalog, c': Catalog, child: Path, tags: seq<TagId>)
    requires AppendOnly(c, c') && ChildReconciled(c, child, tags)
    ensures ChildReconciled(c', child, tags)
  {
    FileByPathStable(c, c', child);
    forall t | t in tags
      ensures HasImplicit(c', FileByPath(c', child).value, t)
    {
      assert HasImplicit(c, FileByPath(c, child).value, t);
    }
  }

  // ---------------------------------------------------------------------
  // Exec
  // ---------------------------------------------------------------------

  /** The loop over one root's entries; it stops at the first error. */
  function CheckEntries(env: Env, idx: Index, entries: seq<Entry>, c: Catalog): (r: Outcome)
    ensures Grows(c, r.catalog)
    ensures forall id | 0 <= id < |c.files| && r.catalog.files[id] != c.files[id] ::
      exists e | e in entries :: e.id == id
    decreases |entries|
  {
    if entries == [] then Outcome(c, [], None)
    else
      var o := CheckEntry(env, idx, entries[0], c);
      if o.failure.Some? then o
      else
        var rest := CheckEntries(env, idx, entries[1..], o.catalog);
        assert forall e | e in entries[1..] :: e in entries;
        Prepend(o.log, rest)
  }

  /** The loop over the requested roots; each root's entries are fetched from the catalog as it stands then. */
  function CheckRoots(env: Env, idx: Index, roots: seq<Path>, c: Catalog): Outcome
    decreases |roots|
  {
    if roots == [] then Outcome(c, [], None)
    else
      var o := CheckEntries(env, idx, FilesByDirectory(c, roots[0]), c);
      if o.failure.Some? then o
      else Prepend(o.log, CheckRoots(env, idx, roots[1..], o.catalog))
  }

  /** RepairCommand.Exec: build the candidate index once, then check every root. */
  function Exec(env: Env, roots: seq<Path>, c: Catalog): Outcome {
    var b := BuildFileSystemMap(env.fs, roots);
    var warnings := seq(|b.skipped|, i requires 0 <= i < |b.skipped| => WarnRootPermissionDenied(b.skipped[i]));
    match b.failure
    case Some((root, e)) => Outcome(c, warnings, Some(FsFailure(root, e)))
    case None => Prepend(warnings, CheckRoots(env, b.index, roots, c))
  }
}

=== FILE: repair_proofs.dfy ===
/**
 Properties of the repair engine: how each classification changes the
 catalog, which candidate a missing entry moves to, what directory
 reconciliation guarantees about children and implicit taggings, and
 which records a whole run may touch.
 */
module RepairProofs {
  import opened Results
  import opened FileSystem
  import opened Storage
  import opened CandidateIndex
  import opened Repair

  /** The log reports no modification and no move. */
  predicate NoContentReports(log: seq<Event>) {
    forall e | e in log :: !e.ReportModified? && !e.ReportMoved?
  }

  // ---------------------------------------------------------------------
  // Entry classification
  // ---------------------------------------------------------------------

  /**
   An entry whose size and modification second match the disk is not
   updated: every existing record stays as it was and nothing is reported
   as modified or moved. A file's check then changes nothing at all.
   */
  lemma UnchangedEntryIsNotUpdated(env: Env, idx: Index, entry: Entry, c: Catalog, info: FileInfo)
    requires Stat(env.fs, entry.file.path) == Ok(info) && SameOnDisk(info, entry.file)
    ensures var r := CheckEntry(env, idx, entry, c);
      c.files <= r.catalog.files && NoContentReports(r.log) &&
      (!info.isDir ==> r == Outcome(c, [], None))
  {
    var r := CheckEntry(env, idx, entry, c);
    if info.isDir {
      var d := ProcessDirectory(env, c, entry, TagsByFileId(c, entry.id, false));
      assert r == Prepend([], d);
      assert forall e | e in r.log :: e.ReportImplicitTagging?;
    }
  }

  /**
   An entry whose size or modification second differs, and whose path no
   other record holds, is updated once: same id and path, the freshly
   computed fingerprint, the new time and size; no other record changes
   and the log opens with one "modified".
   */
  lemma ModifiedEntryIsUpdatedOnce(env: Env, idx: Index, entry: Entry, c: Catalog, info: FileInfo, fp: string)
    requires entry.id < |c.files| && PathFree(c, entry.id, entry.file.path)
    requires Stat(env.fs, entry.file.path) == Ok(info) && !SameOnDisk(info, entry.file)
    requires env.fingerprint(entry.file.path) == Some(fp)
    ensures var r := CheckEntry(env, idx, entry, c);
      r.catalog.files[entry.id] == FileRecord(entry.file.path, fp, info.modTime, info.size) &&
      OthersUnchanged(c, r.catalog, entry.id) &&
      |r.log| >= 1 && r.log[0] == ReportModified(entry.file.path) && NoContentReports(r.log[1..])
    ensures var updated := c.(files := c.files[entry.id := FileRecord(entry.file.path, fp, info.modTime, info.size)]);
      !info.isDir ==> CheckEntry(env, idx, entry, c) == Outcome(updated, [ReportModified(entry.file.path)], None)
  {
    var updated := UpdateFile(c, entry.id, FileRecord(entry.file.path, fp, info.modTime, info.size)).value;
    var r := CheckEntry(env, idx, entry, c);
    assert r == ReconcileIfDirectory(env, entry, info, updated, [ReportModified(entry.file.path)]);
    if info.isDir {
      var d := ProcessDirectory(env, updated, entry, TagsByFileId(updated, entry.id, false));
      assert r.log == [ReportModified(entry.file.path)] + d.log;
      assert r.log[1..] == d.log;
    }
  }

  /**
   A modified entry whose path another record already holds cannot be
   updated: the catalog refuses the write and the run ends, unchanged.
   In a run the entries come from a catalog that keeps paths unique, so
   this case does not arise there: `StoredEntryNeverRefused` is the converse.
   */
  lemma ModifiedEntryPathTaken(env: Env, idx: Index, entry: Entry, c: Catalog, info: FileInfo, other: FileId)
    requires entry.id < |c.files| && other < |c.files| && other != entry.id
    requires c.files[other].path == entry.file.path
    requires Stat(env.fs, entry.file.path) == Ok(info) && !SameOnDisk(info, entry.file)
    requires env.fingerprint(entry.file.path).Some?
    ensures CheckEntry(env, idx, entry, c) == Outcome(c, [], Some(StoreFailure(DuplicatePath(entry.file.path))))
  {
  }

  /**
   The converse of ModifiedEntryPathTaken: an entry read from a catalog that
   keeps paths unique, and that can be stat'ed, is never refused by the store.
   */
  lemma StoredEntryNeverRefused(env: Env, idx: Index, entry: Entry, c: Catalog)
    requires UniquePaths(c) && entry.id < |c.files| && entry.file == c.files[entry.id]
    requires Stat(env.fs, entry.file.path).Ok?
    ensures var r := CheckEntry(env, idx, entry, c);
      r.failure.Some? ==> !r.failure.value.StoreFailure?
  {
    var info := Stat(env.fs, entry.file.path).value;
    assert PathFree(c, entry.id, entry.file.path) by {
      forall i | 0 <= i < |c.files| && i != entry.id
        ensures c.files[i].path != entry.file.path
      {
        if i < entry.id {
          assert c.files[i].path != c.files[entry.id].path;
        } else {
          assert c.files[entry.id].path != c.files[i].path;
        }
      }
    }
  }

  /** A modified entry whose content cannot be fingerprinted ends the run without touching the catalog. */
  lemma ModifiedEntryFingerprintFailure(env: Env, idx: Index, entry: Entry, c: Catalog, info: FileInfo)
    requires Stat(env.fs, entry.file.path) == Ok(info) && !SameOnDisk(info, entry.file)
    requires env.fingerprint(entry.file.path).None?
    ensures CheckEntry(env, idx, entry, c) == Outcome(c, [], Some(FingerprintFailure(entry.file.path)))
  {
  }

  /**
   After a file's record has been updated, checking the updated entry
   against the same disk classifies it as unchanged and changes nothing.
   */
  lemma RecheckAfterModificationIsUnchanged(env: Env, idx: Index, entry: Entry, c: Catalog, info: FileInfo, fp: string)
    requires entry.id < |c.files| && PathFree(c, entry.id, entry.file.path)
    requires Stat(env.fs, entry.file.path) == Ok(info) && !info.isDir && !SameOnDisk(info, entry.file)
    requires env.fingerprint(entry.file.path) == Some(fp)
    ensures var r := CheckEntry(env, idx, entry, c);
      var again := Entry(entry.id, r.catalog.files[entry.id]);
      Classify(Stat(env.fs, again.file.path), again.file).Unchanged? &&
      CheckEntry(env, idx, again, r.catalog) == Outcome(r.catalog, [], None)
  {
    ModifiedEntryIsUpdatedOnce(env, idx, entry, c, info, fp);
    var r := CheckEntry(env, idx, entry, c);
    var again := Entry(entry.id, r.catalog.files[entry.id]);
    UnchangedEntryIsNotUpdated(env, idx, again, r.catalog, info);
  }

  /** A stat failure other than "does not exist" is reported and skipped: no change, no error. */
  lemma StatFailureIsSkipped(env: Env, idx: Index, entry: Entry, c: Catalog, e: FsError)
    requires Stat(env.fs, entry.file.path) == Err(e) && e != NotExist
    ensures var r := CheckEntry(env, idx, entry, c);
      r.catalog == c && r.failure.None? && |r.log| == 1 && r.log[0].path == entry.file.path &&
      (r.log[0] == WarnPermissionDenied(entry.file.path) <==> e == PermissionDenied)
    ensures CheckEntry(env, idx, entry, c).log ==
      [if e == PermissionDenied then WarnPermissionDenied(entry.file.path) else WarnStatError(entry.file.path, e)]
  {
  }

  /** Only a missing path leads to move resolution. */
  lemma OnlyMissingEntriesAreResolved(env: Env, idx: Index, entry: Entry, c: Catalog)
    ensures (exists e | e in CheckEntry(env, idx, entry, c).log :: e.ReportMoved?) ==>
      Stat(env.fs, entry.file.path) == Err(NotExist)
  {
    var r := CheckEntry(env, idx, entry, c);
    match Stat(env.fs, entry.file.path)
    case Ok(info) =>
      if SameOnDisk(info, entry.file) {
        UnchangedEntryIsNotUpdated(env, idx, entry, c, info);
      } else if env.fingerprint(entry.file.path).Some? && info.isDir &&
        UpdateFile(c, entry.id, FileRecord(entry.file.path, env.fingerprint(entry.file.path).value, info.modTime, info.size)).Ok?
      {
        var updated := UpdateFile(c, entry.id,
          FileRecord(entry.file.path, env.fingerprint(entry.file.path).value, info.modTime, info.size)).value;
        var d := ProcessDirectory(env, updated, entry, TagsByFileId(updated, entry.id, false));
        assert r.log == [ReportModified(entry.file.path)] + d.log;
      }
    case Err(e) =>
  }

  /** A missing entry with no stored fingerprint is not searched for: no lookup, no fingerprint, no change. */
  lemma MissingWithoutFingerprintIsLeft(env: Env, idx: Index, entry: Entry, c: Catalog)
    requires Stat(env.fs, entry.file.path) == Err(NotExist) && entry.file.fingerprint == ""
    ensures forall fingerprint: Path -> Option<string>, idx': Index ::
      CheckEntry(Env(env.fs, fingerprint), idx', entry, c) == Outcome(c, [], None)
  {
  }

  // ---------------------------------------------------------------------
  // Move resolution
  // ---------------------------------------------------------------------

  /** `i` is the first candidate whose fingerprint equals `want`, and every earlier one could be fingerprinted. */
  predicate IsFirstMatch(fingerprint: Path -> Option<string>, paths: seq<Path>, want: string, i: int) {
    0 <= i < |paths| && fingerprint(paths[i]) == Some(want) &&
    forall j | 0 <= j < i :: fingerprint(paths[j]).Some? && fingerprint(paths[j]).value != want
  }

  /** The record a missing entry is moved to: the candidate's path and stat, the stored fingerprint. */
  function MovedTo(entry: Entry, candidate: Path, info: FileInfo): FileRecord {
    FileRecord(candidate, entry.file.fingerprint, info.modTime, info.size)
  }

  /**
   Moving the entry's record to `target`: reported as moved when the
   catalog accepts the write, the run's error when it refuses it.
   */
  function MoveTo(c: Catalog, entry: Entry, target: Path, info: FileInfo): Outcome {
    match UpdateFile(c, entry.id, MovedTo(entry, target, info))
    case Ok(c') => Outcome(c', [ReportMoved(entry.file.path, target)], None)
    case Err(e) => Outcome(c, [], Some(StoreFailure(e)))
  }

  /** The search stops at the first matching candidate and tries to move the entry there. */
  lemma {:induction false} SearchFindsFirstMatch(env: Env, paths: seq<Path>, entry: Entry, c: Catalog, i: nat, info: FileInfo)
    requires IsFirstMatch(env.fingerprint, paths, entry.file.fingerprint, i)
    requires Stat(env.fs, paths[i]) == Ok(info)
    ensures SearchCandidates(env, paths, entry, c) == MoveTo(c, entry, paths[i], info)
    decreases i
  {
    if i > 0 {
      SearchFindsFirstMatch(env, paths[1..], entry, c, i - 1, info);
    }
  }

  /** With no candidate of equal fingerprint, the entry is reported missing and left as it is. */
  lemma {:induction false} SearchWithoutMatch(env: Env, paths: seq<Path>, entry: Entry, c: Catalog)
    requires forall j | 0 <= j < |paths| ::
      env.fingerprint(paths[j]).Some? && env.fingerprint(paths[j]).value != entry.file.fingerprint
    ensures SearchCandidates(env, paths, entry, c) == Outcome(c, [WarnMissing(entry.file.path)], None)
    decreases |paths|
  {
    if paths != [] {
      SearchWithoutMatch(env, paths[1..], entry, c);
    }
  }

  /** A candidate that cannot be fingerprinted before any match ends the run; the catalog is untouched. */
  lemma {:induction false} SearchFingerprintFailure(env: Env, paths: seq<Path>, entry: Entry, c: Catalog, i: nat)
    requires i < |paths| && env.fingerprint(paths[i]).None?
    requires forall j | 0 <= j < i ::
      env.fingerprint(paths[j]).Some? && env.fingerprint(paths[j]).value != entry.file.fingerprint
    ensures SearchCandidates(env, paths, entry, c) == Outcome(c, [], Some(FingerprintFailure(paths[i])))
    decreases i
  {
    if i > 0 {
      SearchFingerprintFailure(env, paths[1..], entry, c, i - 1);
    }
  }

  /**
   A missing entry with a fingerprint moves to the first candidate of
   exactly its stored size whose fingerprint matches, when no other record
   holds that path: path and stat from the candidate, fingerprint kept,
   one "moved" report, nothing else changed.
   */
  lemma MissingEntryMovesToFirstMatch(env: Env, idx: Index, entry: Entry, c: Catalog, i: nat, info: FileInfo)
    requires entry.id < |c.files|
    requires Stat(env.fs, entry.file.path) == Err(NotExist) && entry.file.fingerprint != ""
    requires IsFirstMatch(env.fingerprint, Candidates(idx, entry.file.size), entry.file.fingerprint, i)
    requires Stat(env.fs, Candidates(idx, entry.file.size)[i]) == Ok(info)
    requires PathFree(c, entry.id, Candidates(idx, entry.file.size)[i])
    ensures var r := CheckEntry(env, idx, entry, c); var target := Candidates(idx, entry.file.size)[i];
      r.failure.None? && r.log == [ReportMoved(entry.file.path, target)] &&
      r.catalog.files[entry.id] == MovedTo(entry, target, info) &&
      r.catalog.files[entry.id].fingerprint == entry.file.fingerprint &&
      OthersUnchanged(c, r.catalog, entry.id) && r.catalog.taggings == c.taggings
  {
    SearchFindsFirstMatch(env, Candidates(idx, entry.file.size), entry, c, i, info);
  }

  /** A missing entry none of whose same-size candidates matches is reported missing and left unchanged. */
  lemma MissingEntryWithoutMatchIsLeft(env: Env, idx: Index, entry: Entry, c: Catalog)
    requires Stat(env.fs, entry.file.path) == Err(NotExist) && entry.file.fingerprint != ""
    requires var paths := Candidates(idx, entry.file.size);
      forall j | 0 <= j < |paths| ::
        env.fingerprint(paths[j]).Some? && env.fingerprint(paths[j]).value != entry.file.fingerprint
    ensures CheckEntry(env, idx, entry, c) == Outcome(c, [WarnMissing(entry.file.path)], None)
  {
    SearchWithoutMatch(env, Candidates(idx, entry.file.size), entry, c);
  }

  /** Only the candidates filed under the stored size matter: two indexes that agree there resolve alike. */
  lemma OnlySameSizeCandidatesMatter(env: Env, idx: Index, idx': Index, entry: Entry, c: Catalog)
    requires Candidates(idx, entry.file.size) == Candidates(idx', entry.file.size)
    ensures CheckEntry(env, idx, entry, c) == CheckEntry(env, idx', entry, c)
  {
  }

  /**
   With a sound index, move resolution never fails on the candidate's
   stat (only a fingerprint or a refused write can end it), and a moved
   record keeps its fingerprint and stored size and points at a candidate
   of that size.
   */
  lemma {:induction false} SearchWithSoundCandidates(env: Env, paths: seq<Path>, entry: Entry, c: Catalog)
    requires entry.id < |c.files|
    requires forall k | 0 <= k < |paths| :: IsCandidate(env.fs, Candidate(paths[k], entry.file.size))
    ensures var r := SearchCandidates(env, paths, entry, c);
      (r.failure.Some? ==> !r.failure.value.FsFailure?) &&
      (r.catalog.files[entry.id] == c.files[entry.id] ||
       (r.catalog.files[entry.id].fingerprint == entry.file.fingerprint &&
        r.catalog.files[entry.id].size == entry.file.size &&
        r.catalog.files[entry.id].path in paths))
    decreases |paths|
  {
    if paths != [] {
      SearchWithSoundCandidates(env, paths[1..], entry, c);
      assert IsCandidate(env.fs, Candidate(paths[0], entry.file.size));
      assert forall p | p in paths[1..] :: p in paths;
    }
  }

  /**
   The same guarantees for processMissingEntry: with a sound index the
   search fails on no stat, and a moved record keeps its fingerprint and
   size and points at a candidate of its size.
   */
  lemma MissingEntryWithSoundIndex(env: Env, idx: Index, entry: Entry, c: Catalog)
    requires entry.id < |c.files| && SoundIndex(env.fs, idx)
    ensures var r := ProcessMissingEntry(env, idx, entry, c);
      (r.failure.Some? ==> !r.failure.value.FsFailure?) &&
      (r.catalog.files[entry.id] == c.files[entry.id] ||
       (r.catalog.files[entry.id].fingerprint == entry.file.fingerprint &&
        r.catalog.files[entry.id].size == entry.file.size &&
        r.catalog.files[entry.id].path in Candidates(idx, entry.file.size)))
  {
    if entry.file.fingerprint != "" {
      SearchWithSoundCandidates(env, Candidates(idx, entry.file.size), entry, c);
    }
  }

  // ---------------------------------------------------------------------
  // Directory reconciliation
  // ---------------------------------------------------------------------

  /**
   After a directory is processed without error, every child on disk is
   tracked and carries an implicit tagging for each of the given tags; the
   catalog only grew, by records for children and implicit taggings with
   those tags. A directory that cannot be listed stops the run unchanged.
   */
  lemma DirectoryChildrenReconciled(env: Env, c: Catalog, entry: Entry, tags: seq<TagId>)
    ensures var r := ProcessDirectory(env, c, entry, tags);
      AppendOnly(c, r.catalog) && NewTaggingsImplicit(r.catalog, |c.taggings|, tags)
    ensures var r := ProcessDirectory(env, c, entry, tags);
      ReadDirNames(env.fs, entry.file.path).Err? ==>
        r == Outcome(c, [], Some(FsFailure(entry.file.path, ReadDirNames(env.fs, entry.file.path).error)))
    ensures var r := ProcessDirectory(env, c, entry, tags);
      ReadDirNames(env.fs, entry.file.path).Ok? ==>
        (var names := ReadDirNames(env.fs, entry.file.path).value;
         (forall i | |c.files| <= i < |r.catalog.files| ::
            exists n | n in names :: r.catalog.files[i].path == Join(entry.file.path, n)) &&
         (r.failure.None? ==> forall n | n in names :: ChildReconciled(r.catalog, Join(entry.file.path, n), tags)))
  {
  }

  /**
   The child loop failed at name k: the names before k were reconciled
   without error, and `r` is their outcome followed by child k's failing one.
   */
  predicate ChildrenStopAt(env: Env, c: Catalog, dir: Path, names: seq<Name>, tags: seq<TagId>, k: nat, r: Outcome) {
    k < |names| &&
    var p := ReconcileChildren(env, c, dir, names[..k], tags);
    var o := ReconcileChild(env, p.catalog, Join(dir, names[k]), tags);
    p.failure.None? && o.failure.Some? && r == Prepend(p.log, o)
  }

  /** Two reports prepended one after the other are one prepended concatenation. */
  lemma PrependTwice(a: seq<Event>, b: seq<Event>, o: Outcome)
    ensures Prepend(a, Prepend(b, o)) == Prepend(a + b, o)
  {
    assert a + (b + o.log) == (a + b) + o.log;
  }

  /** The child loop over a prefix unfolds like the loop itself when its first child succeeds. */
  lemma ReconcileChildrenPrefix(env: Env, c: Catalog, dir: Path, names: seq<Name>, tags: seq<TagId>, k: nat)
    requires k < |names|
    requires ReconcileChild(env, c, Join(dir, names[0]), tags).failure.None?
    ensures var o := ReconcileChild(env, c, Join(dir, names[0]), tags);
      ReconcileChildren(env, c, dir, names[..k + 1], tags) ==
        Prepend(o.log, ReconcileChildren(env, o.catalog, dir, names[1..][..k], tags))
  {
    assert names[..k + 1][1..] == names[1..][..k];
    assert names[..k + 1][0] == names[0];
  }

  /**
   The child loop stops at the first child it cannot register: what the
   children before it added stays, and no later child is looked at.
   */
  lemma {:induction false} ReconcileChildrenStopsAtFailure(env: Env, c: Catalog, dir: Path, names: seq<Name>, tags: seq<TagId>)
    ensures var r := ReconcileChildren(env, c, dir, names, tags);
      r.failure.Some? ==> exists k: nat :: ChildrenStopAt(env, c, dir, names, tags, k, r)
    decreases |names|
  {
    var r := ReconcileChildren(env, c, dir, names, tags);
    if names != [] && r.failure.Some? {
      var o := ReconcileChild(env, c, Join(dir, names[0]), tags);
      if o.failure.Some? {
        assert names[..0] == [];
        assert ChildrenStopAt(env, c, dir, names, tags, 0, r);
      } else {
        var rest := ReconcileChildren(env, o.catalog, dir, names[1..], tags);
        ReconcileChildrenStopsAtFailure(env, o.catalog, dir, names[1..], tags);
        var k: nat :| ChildrenStopAt(env, o.catalog, dir, names[1..], tags, k, rest);
        var p' := ReconcileChildren(env, o.catalog, dir, names[1..][..k], tags);
        var o' := ReconcileChild(env, p'.catalog, Join(dir, names[1..][k]), tags);
        ReconcileChildrenPrefix(env, c, dir, names, tags, k);
        PrependTwice(o.log, p'.log, o');
        assert names[k + 1] == names[1..][k];
        assert ChildrenStopAt(env, c, dir, names, tags, k + 1, r);
      }
    }
  }

  /** Every record a directory's reconciliation appends agrees with the disk at its own path. */
  lemma RegisteredChildrenInSync(env: Env, c: Catalog, dir: Path, names: seq<Name>, tags: seq<TagId>)
    ensures var r := ReconcileChildren(env, c, dir, names, tags);
      forall i | |c.files| <= i < |r.catalog.files| :: InSync(env.fs, r.catalog, i, r.catalog.files[i].path)
  {
  }

  /** Every record appended after `c` has a path that `c` did not track. */
  predicate NewRecordsUntracked(c: Catalog, c': Catalog) {
    forall i | |c.files| <= i < |c'.files| :: FileByPath(c, c'.files[i].path).None?
  }

  lemma NewRecordsUntrackedTransitive(c: Catalog, c': Catalog, c'': Catalog)
    requires AppendOnly(c, c') && AppendOnly(c', c'')
    requires NewRecordsUntracked(c, c') && NewRecordsUntracked(c', c'')
    ensures NewRecordsUntracked(c, c'')
  {
    forall i | |c.files| <= i < |c''.files|
      ensures FileByPath(c, c''.files[i].path).None?
    {
      if i < |c'.files| {
        assert c''.files[i] == c'.files[i];
      } else {
        var p := c''.files[i].path;
        assert FileByPath(c', p).None?;
        if FileByPath(c, p).Some? {
          FileByPathStable(c, c', p);
        }
      }
    }
  }

  /** Only children that were not tracked are added, and so no path gains a second record. */
  lemma {:induction false} OnlyUntrackedChildrenAdded(env: Env, c: Catalog, dir: Path, names: seq<Name>, tags: seq<TagId>)
    ensures NewRecordsUntracked(c, ReconcileChildren(env, c, dir, names, tags).catalog)
    decreases |names|
  {
    if names != [] {
      var o := ReconcileChild(env, c, Join(dir, names[0]), tags);
      assert NewRecordsUntracked(c, o.catalog);
      if o.failure.None? {
        OnlyUntrackedChildrenAdded(env, o.catalog, dir, names[1..], tags);
        var rest := ReconcileChildren(env, o.catalog, dir, names[1..], tags);
        assert ReconcileChildren(env, c, dir, names, tags).catalog == rest.catalog;
        NewRecordsUntrackedTransitive(c, o.catalog, rest.catalog);
      }
    }
  }

  lemma ReconcileChildKeepsPathsUnique(env: Env, c: Catalog, child: Path, tags: seq<TagId>)
    requires UniquePaths(c)
    ensures UniquePaths(ReconcileChild(env, c, child, tags).catalog)
  {
    var r := ReconcileChild(env, c, child, tags);
    if FileByPath(c, child).None? && AddChild(env, c, child).Ok? {
      var added := AddChild(env, c, child).value.0;
      assert r.catalog.files == added.files;
      forall i, j | 0 <= i < j < |added.files|
        ensures added.files[i].path != added.files[j].path
      {
        if j == |c.files| {
          assert added.files[i] == c.files[i];
        } else {
          assert added.files[i] == c.files[i] && added.files[j] == c.files[j];
        }
      }
    }
  }

  /** Registering the children of a directory never gives a path a second record. */
  lemma {:induction false} ReconcileChildrenKeepsPathsUnique(env: Env, c: Catalog, dir: Path, names: seq<Name>, tags: seq<TagId>)
    requires UniquePaths(c)
    ensures UniquePaths(ReconcileChildren(env, c, dir, names, tags).catalog)
    decreases |names|
  {
    if names != [] {
      var o := ReconcileChild(env, c, Join(dir, names[0]), tags);
      ReconcileChildKeepsPathsUnique(env, c, Join(dir, names[0]), tags);
      if o.failure.None? {
        ReconcileChildrenKeepsPathsUnique(env, o.catalog, dir, names[1..], tags);
      }
    }
  }

  /** Move resolution keeps paths unique: the catalog refuses a move onto a path another record holds. */
  lemma {:induction false} SearchKeepsPathsUnique(env: Env, paths: seq<Path>, entry: Entry, c: Catalog)
    requires UniquePaths(c)
    ensures UniquePaths(SearchCandidates(env, paths, entry, c).catalog)
    decreases |paths|
  {
    if paths != [] && env.fingerprint(paths[0]).Some? && env.fingerprint(paths[0]).value != entry.file.fingerprint {
      SearchKeepsPathsUnique(env, paths[1..], entry, c);
    }
  }

  /**
   Checking any entry keeps paths unique: an update or a move onto a path
   another record holds is refused, and only untracked children are
   registered.
   */
  lemma CheckEntryKeepsPathsUnique(env: Env, idx: Index, entry: Entry, c: Catalog)
    requires UniquePaths(c)
    ensures UniquePaths(CheckEntry(env, idx, entry, c).catalog)
  {
    match Stat(env.fs, entry.file.path)
    case Err(NotExist) =>
      if entry.file.fingerprint != "" {
        SearchKeepsPathsUnique(env, Candidates(idx, entry.file.size), entry, c);
      }
    case Err(_) =>
    case Ok(info) =>
      var fp := env.fingerprint(entry.file.path);
      if SameOnDisk(info, entry.file) || fp.None? {
        if info.isDir && SameOnDisk(info, entry.file) {
          match ReadDirNames(env.fs, entry.file.path)
          case Err(_) =>
          case Ok(names) =>
            ReconcileChildrenKeepsPathsUnique(env, c, entry.file.path, names, TagsByFileId(c, entry.id, false));
        }
      } else {
        var u := UpdateFile(c, entry.id, FileRecord(entry.file.path, fp.value, info.modTime, info.size));
        if u.Ok? && info.isDir {
          match ReadDirNames(env.fs, entry.file.path)
          case Err(_) =>
          case Ok(names) =>
            ReconcileChildrenKeepsPathsUnique(env, u.value, entry.file.path, names, TagsByFileId(u.value, entry.id, false));
        }
      }
  }

  /** The loop over a root's entries keeps paths unique. */
  lemma {:induction false} CheckEntriesKeepsPathsUnique(env: Env, idx: Index, entries: seq<Entry>, c: Catalog)
    requires UniquePaths(c)
    ensures UniquePaths(CheckEntries(env, idx, entries, c).catalog)
    decreases |entries|
  {
    if entries != [] {
      CheckEntryKeepsPathsUnique(env, idx, entries[0], c);
      var o := CheckEntry(env, idx, entries[0], c);
      if o.failure.None? {
        CheckEntriesKeepsPathsUnique(env, idx, entries[1..], o.catalog);
      }
    }
  }

  /** The loop over the roots keeps paths unique. */
  lemma {:induction false} CheckRootsKeepsPathsUnique(env: Env, idx: Index, roots: seq<Path>, c: Catalog)
    requires UniquePaths(c)
    ensures UniquePaths(CheckRoots(env, idx, roots, c).catalog)
    decreases |roots|
  {
    if roots != [] {
      CheckEntriesKeepsPathsUnique(env, idx, FilesByDirectory(c, roots[0]), c);
      var o := CheckEntries(env, idx, FilesByDirectory(c, roots[0]), c);
      if o.failure.None? {
        CheckRootsKeepsPathsUnique(env, idx, roots[1..], o.catalog);
      }
    }
  }

  /** A whole run keeps the catalog's paths unique, whether or not it ends in an error. */
  lemma ExecKeepsPathsUnique(env: Env, roots: seq<Path>, c: Catalog)
    requires UniquePaths(c)
    ensures UniquePaths(Exec(env, roots, c).catalog)
  {
    if BuildFileSystemMap(env.fs, roots).failure.None? {
      CheckRootsKeepsPathsUnique(env, BuildFileSystemMap(env.fs, roots).index, roots, c);
    }
  }

  /**
   Move resolution does not skip candidates that are already tracked: when
   the first match is another record's path, the catalog refuses the move
   and the run ends with the catalog unchanged.
   */
  lemma MoveOntoTrackedPathFails(env: Env, idx: Index, entry: Entry, c: Catalog, i: nat, info: FileInfo, other: FileId)
    requires entry.id < |c.files| && other < |c.files| && other != entry.id
    requires Stat(env.fs, entry.file.path) == Err(NotExist) && entry.file.fingerprint != ""
    requires IsFirstMatch(env.fingerprint, Candidates(idx, entry.file.size), entry.file.fingerprint, i)
    requires Stat(env.fs, Candidates(idx, entry.file.size)[i]) == Ok(info)
    requires c.files[other].path == Candidates(idx, entry.file.size)[i]
    ensures CheckEntry(env, idx, entry, c) ==
      Outcome(c, [], Some(StoreFailure(DuplicatePath(Candidates(idx, entry.file.size)[i]))))
  {
    SearchFindsFirstMatch(env, Candidates(idx, entry.file.size), entry, c, i, info);
  }

  /** The implicit taggings a child lacks, judged against the catalog before any is added. */
  function MissingImplicit(c: Catalog, id: FileId, tags: seq<TagId>): seq<Tagging>
    decreases |tags|
  {
    if tags == [] then []
    else
      (if NeedsImplicit(c, id, tags[0]) then [Tagging(id, tags[0], true)] else []) +
      MissingImplicit(c, id, tags[1..])
  }

  lemma {:induction false} FirstTaggingAppendOther(rows: seq<Tagging>, g: Tagging, id: FileId, tag: TagId)
    requires g.fileId != id || g.tagId != tag
    ensures FirstTagging(rows + [g], id, tag) == FirstTagging(rows, id, tag)
    decreases |rows|
  {
    if rows == [] {
      assert [g][1..] == [];
    } else {
      assert (rows + [g])[1..] == rows[1..] + [g];
      FirstTaggingAppendOther(rows[1..], g, id, tag);
    }
  }

  lemma {:induction false} MissingImplicitIgnoresOtherTags(c: Catalog, id: FileId, tag: TagId, tags: seq<TagId>)
    requires tag !in tags
    ensures MissingImplicit(AddImplicitFileTag(c, id, tag), id, tags) == MissingImplicit(c, id, tags)
    decreases |tags|
  {
    if tags != [] {
      FirstTaggingAppendOther(c.taggings, Tagging(id, tag, true), id, tags[0]);
      MissingImplicitIgnoresOtherTags(c, id, tag, tags[1..]);
    }
  }

  /** Associativity of row sequences, proved apart from the large context of the tag-loop proof. */
  lemma ConcatAssoc(a: seq<Tagging>, b: seq<Tagging>, l: seq<Tagging>)
    ensures (a + b) + l == a + (b + l)
  {
  }

  /** One step of the tag loop, as a catalog and the reports of that step. */
  lemma TagChildStep(c: Catalog, child: Path, id: FileId, tags: seq<TagId>)
    requires tags != []
    ensures var tag := tags[0];
      var c' := if NeedsImplicit(c, id, tag) then AddImplicitFileTag(c, id, tag) else c;
      var log := if NeedsImplicit(c, id, tag) then [ReportImplicitTagging(child, tag)] else [];
      TagChild(c, child, id, tags) == Prepend(log, TagChild(c', child, id, tags[1..]))
  {
  }

  /**
   For distinct tags, the rows added for a child are exactly one implicit
   tagging per tag whose lookup found nothing or an explicit tagging, in
   tag order.
   */
  lemma {:induction false} TagChildAddsExactlyMissing(c: Catalog, child: Path, id: FileId, tags: seq<TagId>)
    requires Distinct(tags)
    ensures TagChild(c, child, id, tags).catalog.taggings == c.taggings + MissingImplicit(c, id, tags)
    decreases |tags|
  {
    if tags != [] {
      var tag := tags[0];
      assert Distinct(tags[1..]);
      TagChildStep(c, child, id, tags);
      var later := MissingImplicit(c, id, tags[1..]);
      if NeedsImplicit(c, id, tag) {
        assert tag !in tags[1..];
        var c' := AddImplicitFileTag(c, id, tag);
        var rest := TagChild(c', child, id, tags[1..]);
        assert TagChild(c, child, id, tags).catalog == rest.catalog;
        TagChildAddsExactlyMissing(c', child, id, tags[1..]);
        assert rest.catalog.taggings == c'.taggings + MissingImplicit(c', id, tags[1..]);
        MissingImplicitIgnoresOtherTags(c, id, tag, tags[1..]);
        assert MissingImplicit(c', id, tags[1..]) == later;
        assert c'.taggings == c.taggings + [Tagging(id, tag, true)];
        assert MissingImplicit(c, id, tags) == [Tagging(id, tag, true)] + later;
        ConcatAssoc(c.taggings, [Tagging(id, tag, true)], later);
      } else {
        var rest := TagChild(c, child, id, tags[1..]);
        assert TagChild(c, child, id, tags).catalog == rest.catalog;
        TagChildAddsExactlyMissing(c, child, id, tags[1..]);
        assert MissingImplicit(c, id, tags) == later;
      }
    }
  }

  /** For distinct tags, each added implicit tagging is reported once, in the same order. */
  lemma {:induction false} TagChildReportsEachAddition(c: Catalog, child: Path, id: FileId, tags: seq<TagId>)
    requires Distinct(tags)
    ensures var r := TagChild(c, child, id, tags); var added := MissingImplicit(c, id, tags);
      |r.log| == |added| &&
      forall k | 0 <= k < |added| :: r.log[k] == ReportImplicitTagging(child, added[k].tagId)
    decreases |tags|
  {
    if tags != [] {
      var tag := tags[0];
      assert Distinct(tags[1..]);
      TagChildStep(c, child, id, tags);
      var r := TagChild(c, child, id, tags);
      var added := MissingImplicit(c, id, tags);
      var later := MissingImplicit(c, id, tags[1..]);
      if NeedsImplicit(c, id, tag) {
        assert tag !in tags[1..];
        var c' := AddImplicitFileTag(c, id, tag);
        var rest := TagChild(c', child, id, tags[1..]);
        TagChildReportsEachAddition(c', child, id, tags[1..]);
        MissingImplicitIgnoresOtherTags(c, id, tag, tags[1..]);
        assert r.log == [ReportImplicitTagging(child, tag)] + rest.log;
        assert added == [Tagging(id, tag, true)] + later;
        forall k | 0 <= k < |added|
          ensures r.log[k] == ReportImplicitTagging(child, added[k].tagId)
        {
          if k > 0 {
            assert r.log[k] == rest.log[k - 1] && added[k] == later[k - 1];
          }
        }
      } else {
        TagChildReportsEachAddition(c, child, id, tags[1..]);
        assert added == later;
      }
    }
  }

  /**
   An explicit tagging does not satisfy the lookup, so reconciling the
   same child twice adds the implicit tagging twice: the reconciliation
   is not idempotent.
   */
  lemma ExplicitTaggingRepeatsImplicit(c: Catalog, child: Path, id: FileId, tag: TagId)
    requires FileTagByFileIdAndTagId(c, id, tag) == Some(Tagging(id, tag, false))
    ensures var once := TagChild(c, child, id, [tag]).catalog;
      var twice := TagChild(once, child, id, [tag]).catalog;
      twice.taggings == c.taggings + [Tagging(id, tag, true), Tagging(id, tag, true)]
  {
    var once := TagChild(c, child, id, [tag]).catalog;
    assert once == AddImplicitFileTag(c, id, tag);
    FileTagStable(c, once, id, tag);
    assert TagChild(once, child, id, [tag]).catalog == AddImplicitFileTag(once, id, tag);
  }

  /**
   A tracked directory that exists and checks without error leaves every
   child on disk tracked and implicitly tagged with each tag the directory
   had before the check (TagsByFileId with explicitOnly = false).
   */
  lemma CheckedDirectoryChildrenTagged(env: Env, idx: Index, entry: Entry, c: Catalog, info: FileInfo, names: seq<Name>)
    requires Stat(env.fs, entry.file.path) == Ok(info) && info.isDir
    requires ReadDirNames(env.fs, entry.file.path) == Ok(names)
    requires CheckEntry(env, idx, entry, c).failure.None?
    ensures var r := CheckEntry(env, idx, entry, c);
      forall n, t | n in names && TaggedWith(c, entry.id, t, false) ::
        FileByPath(r.catalog, Join(entry.file.path, n)).Some? &&
        HasImplicit(r.catalog, FileByPath(r.catalog, Join(entry.file.path, n)).value, t)
  {
    var r := CheckEntry(env, idx, entry, c);
    var c1 := if SameOnDisk(info, entry.file) then c
      else UpdateFile(c, entry.id, FileRecord(entry.file.path, env.fingerprint(entry.file.path).value, info.modTime, info.size)).value;
    assert c1.taggings == c.taggings;
    var tags := TagsByFileId(c1, entry.id, false);
    assert r.catalog == ProcessDirectory(env, c1, entry, tags).catalog;
    forall n, t | n in names && TaggedWith(c, entry.id, t, false)
      ensures FileByPath(r.catalog, Join(entry.file.path, n)).Some? &&
        HasImplicit(r.catalog, FileByPath(r.catalog, Join(entry.file.path, n)).value, t)
    {
      assert TaggedWith(c1, entry.id, t, false);
      assert t in tags;
      assert ChildReconciled(r.catalog, Join(entry.file.path, n), tags);
    }
  }

  // ---------------------------------------------------------------------
  // The driver
  // ---------------------------------------------------------------------

  /** With no path arguments nothing is checked, reported or changed. */
  lemma ExecWithoutRoots(env: Env, c: Catalog)
    ensures Exec(env, [], c) == Outcome(c, [], None)
  {
    assert BuildFileSystemMap(env.fs, []).skipped == [];
  }

  /** A fatal error while building the candidate index ends the run before any entry is checked. */
  lemma ExecIndexFailureChangesNothing(env: Env, roots: seq<Path>, c: Catalog)
    requires BuildFileSystemMap(env.fs, roots).failure.Some?
    ensures var r := Exec(env, roots, c); var f := BuildFileSystemMap(env.fs, roots).failure.value;
      r.catalog == c && r.failure == Some(FsFailure(f.0, f.1)) && NoContentReports(r.log)
  {
  }

  /** `p` lies strictly below one of the roots. */
  predicate UnderSomeRoot(p: Path, roots: seq<Path>) {
    exists root | root in roots :: Within(p, root)
  }

  lemma {:induction false} CheckRootsScope(env: Env, idx: Index, roots: seq<Path>, c: Catalog)
    ensures var r := CheckRoots(env, idx, roots, c);
      Grows(c, r.catalog) &&
      forall id | 0 <= id < |c.files| && r.catalog.files[id] != c.files[id] :: UnderSomeRoot(c.files[id].path, roots)
    decreases |roots|
  {
    if roots != [] {
      var entries := FilesByDirectory(c, roots[0]);
      var o := CheckEntries(env, idx, entries, c);
      var r := CheckRoots(env, idx, roots, c);
      assert roots[0] in roots;
      if o.failure.None? {
        CheckRootsScope(env, idx, roots[1..], o.catalog);
      }
      forall id | 0 <= id < |c.files| && r.catalog.files[id] != c.files[id]
        ensures UnderSomeRoot(c.files[id].path, roots)
      {
        if o.catalog.files[id] != c.files[id] {
          var e :| e in entries && e.id == id;
          var k :| 0 <= k < |entries| && entries[k] == e;
          assert Within(c.files[id].path, roots[0]);
        } else {
          var root :| root in roots[1..] && Within(o.catalog.files[id].path, root);
          assert root in roots;
        }
      }
    }
  }

  /** The record `id` still has path `p`, `p` can be stat'ed, and the record agrees with that stat. */
  predicate InSync(fs: Fs, c: Catalog, id: FileId, p: Path) {
    id < |c.files| && c.files[id].path == p &&
    Stat(fs, p).Ok? && SameOnDisk(Stat(fs, p).value, c.files[id])
  }

  /** `entries` are records of `c` as a catalog query hands them out: current, each id once. */
  predicate Snapshot(c: Catalog, entries: seq<Entry>) {
    (forall k | 0 <= k < |entries| :: entries[k].id < |c.files| && entries[k].file == c.files[entries[k].id]) &&
    (forall k, l | 0 <= k < l < |entries| :: entries[k].id != entries[l].id)
  }

  /** A successful check of an entry that can be stat'ed leaves its record in agreement with the disk. */
  lemma CheckEntrySyncsRecord(env: Env, idx: Index, entry: Entry, c: Catalog)
    requires entry.id < |c.files| && entry.file == c.files[entry.id]
    requires Stat(env.fs, entry.file.path).Ok?
    ensures var r := CheckEntry(env, idx, entry, c);
      r.failure.None? ==> InSync(env.fs, r.catalog, entry.id, entry.file.path)
  {
    var info := Stat(env.fs, entry.file.path).value;
    var r := CheckEntry(env, idx, entry, c);
    if !SameOnDisk(info, entry.file) && env.fingerprint(entry.file.path).Some? {
      var u := UpdateFile(c, entry.id, FileRecord(entry.file.path, env.fingerprint(entry.file.path).value, info.modTime, info.size));
      if u.Ok? {
        assert r == ReconcileIfDirectory(env, entry, info, u.value, [ReportModified(entry.file.path)]);
        assert r.catalog.files[entry.id] == u.value.files[entry.id];
      }
    }
  }

  /**
   After the loop over a root's entries succeeds, every listed entry that
   can be stat'ed keeps its path and agrees with the disk.
   */
  lemma {:induction false} CheckEntriesSyncsRecords(env: Env, idx: Index, entries: seq<Entry>, c: Catalog)
    requires Snapshot(c, entries)
    ensures var r := CheckEntries(env, idx, entries, c);
      r.failure.None? ==> forall k | 0 <= k < |entries| && Stat(env.fs, entries[k].file.path).Ok? ::
        InSync(env.fs, r.catalog, entries[k].id, entries[k].file.path)
    decreases |entries|
  {
    if entries != [] {
      var e := entries[0];
      var o := CheckEntry(env, idx, e, c);
      if o.failure.None? {
        var rest := CheckEntries(env, idx, entries[1..], o.catalog);
        assert Snapshot(o.catalog, entries[1..]) by {
          forall k | 0 <= k < |entries[1..]|
            ensures entries[1..][k].file == o.catalog.files[entries[1..][k].id]
          {
            assert entries[1..][k] == entries[k + 1];
          }
        }
        CheckEntriesSyncsRecords(env, idx, entries[1..], o.catalog);
        var r := CheckEntries(env, idx, entries, c);
        assert r.catalog == rest.catalog && r.failure == rest.failure;
        if r.failure.None? {
          forall k | 0 <= k < |entries| && Stat(env.fs, entries[k].file.path).Ok?
            ensures InSync(env.fs, r.catalog, entries[k].id, entries[k].file.path)
          {
            if k == 0 {
              CheckEntrySyncsRecord(env, idx, e, c);
            } else {
              assert entries[k] == entries[1..][k - 1];
            }
          }
        }
      }
    }
  }

  /**
   After the loop over the roots succeeds, every record that lay below a
   root and can be stat'ed at its path keeps that path and agrees with the
   disk.
   */
  lemma {:induction false} CheckRootsSyncsRecords(env: Env, idx: Index, roots: seq<Path>, c: Catalog)
    ensures var r := CheckRoots(env, idx, roots, c);
      r.failure.None? ==> forall id | 0 <= id < |c.files| &&
        UnderSomeRoot(c.files[id].path, roots) && Stat(env.fs, c.files[id].path).Ok? ::
        InSync(env.fs, r.catalog, id, c.files[id].path)
    decreases |roots|
  {
    if roots != [] {
      var entries := FilesByDirectory(c, roots[0]);
      var o := CheckEntries(env, idx, entries, c);
      var r := CheckRoots(env, idx, roots, c);
      if o.failure.None? && r.failure.None? {
        var rest := CheckRoots(env, idx, roots[1..], o.catalog);
        assert r.catalog == rest.catalog && r.failure == rest.failure;
        CheckEntriesSyncsRecords(env, idx, entries, c);
        CheckRootsSyncsRecords(env, idx, roots[1..], o.catalog);
        CheckRootsScope(env, idx, roots[1..], o.catalog);
        forall id | 0 <= id < |c.files| && UnderSomeRoot(c.files[id].path, roots) && Stat(env.fs, c.files[id].path).Ok?
          ensures InSync(env.fs, r.catalog, id, c.files[id].path)
        {
          var p := c.files[id].path;
          if Within(p, roots[0]) {
            assert Entry(id, c.files[id]) in entries;
            var k :| 0 <= k < |entries| && entries[k] == Entry(id, c.files[id]);
            assert InSync(env.fs, o.catalog, id, p);
            if r.catalog.files[id] != o.catalog.files[id] {
              assert UnderSomeRoot(o.catalog.files[id].path, roots[1..]);
            }
          } else {
            var root :| root in roots && Within(p, root);
            assert root in roots[1..] by {
              assert root != roots[0];
            }
          }
        }
      }
    }
  }

  /**
   A run that ends without error leaves every record that lay below a
   requested root, and whose path can be stat'ed, on that path and in
   agreement with the disk: same modification second, same size.
   */
  lemma ExecSyncsRecords(env: Env, roots: seq<Path>, c: Catalog)
    ensures var r := Exec(env, roots, c);
      r.failure.None? ==> forall id | 0 <= id < |c.files| &&
        UnderSomeRoot(c.files[id].path, roots) && Stat(env.fs, c.files[id].path).Ok? ::
        InSync(env.fs, r.catalog, id, c.files[id].path)
  {
    var b := BuildFileSystemMap(env.fs, roots);
    if b.failure.None? {
      CheckRootsSyncsRecords(env, b.index, roots, c);
    }
  }

  /**
   The entry loop failed at entry k: the entries before k were checked
   without error, and `r` is their outcome followed by entry k's failing one.
   */
  predicate EntriesStopAt(env: Env, idx: Index, entries: seq<Entry>, c: Catalog, k: nat, r: Outcome) {
    k < |entries| &&
    var p := CheckEntries(env, idx, entries[..k], c);
    var o := CheckEntry(env, idx, entries[k], p.catalog);
    p.failure.None? && o.failure.Some? && r == Prepend(p.log, o)
  }

  /** The entry loop over a prefix unfolds like the loop itself when its first entry succeeds. */
  lemma CheckEntriesPrefix(env: Env, idx: Index, entries: seq<Entry>, c: Catalog, k: nat)
    requires k < |entries|
    requires CheckEntry(env, idx, entries[0], c).failure.None?
    ensures var o := CheckEntry(env, idx, entries[0], c);
      CheckEntries(env, idx, entries[..k + 1], c) ==
        Prepend(o.log, CheckEntries(env, idx, entries[1..][..k], o.catalog))
  {
    assert entries[..k + 1][1..] == entries[1..][..k];
    assert entries[..k + 1][0] == entries[0];
  }

  /**
   The entry loop stops at the first entry whose check fails: the updates
   made before it stay, and no later entry is checked.
   */
  lemma {:induction false} CheckEntriesStopsAtFailure(env: Env, idx: Index, entries: seq<Entry>, c: Catalog)
    ensures var r := CheckEntries(env, idx, entries, c);
      r.failure.Some? ==> exists k: nat :: EntriesStopAt(env, idx, entries, c, k, r)
    decreases |entries|
  {
    var r := CheckEntries(env, idx, entries, c);
    if entries != [] && r.failure.Some? {
      var o := CheckEntry(env, idx, entries[0], c);
      if o.failure.Some? {
        assert entries[..0] == [];
        assert EntriesStopAt(env, idx, entries, c, 0, r);
      } else {
        var rest := CheckEntries(env, idx, entries[1..], o.catalog);
        CheckEntriesStopsAtFailure(env, idx, entries[1..], o.catalog);
        var k: nat :| EntriesStopAt(env, idx, entries[1..], o.catalog, k, rest);
        var p' := CheckEntries(env, idx, entries[1..][..k], o.catalog);
        var o' := CheckEntry(env, idx, entries[1..][k], p'.catalog);
        CheckEntriesPrefix(env, idx, entries, c, k);
        PrependTwice(o.log, p'.log, o');
        assert entries[k + 1] == entries[1..][k];
        assert EntriesStopAt(env, idx, entries, c, k + 1, r);
      }
    }
  }

  /**
   A run never deletes a record or a tagging row, and the only existing
   records it changes are ones that lay below a requested root when the
   run began.
   */
  lemma ExecChangesOnlyEntriesUnderRoots(env: Env, roots: seq<Path>, c: Catalog)
    ensures var r := Exec(env, roots, c);
      Grows(c, r.catalog) &&
      forall id | 0 <= id < |c.files| && r.catalog.files[id] != c.files[id] :: UnderSomeRoot(c.files[id].path, roots)
  {
    var b := BuildFileSystemMap(env.fs, roots);
    if b.failure.None? {
      CheckRootsScope(env, b.index, roots, c);
    }
  }
}

=== FILE: results.dfy ===
/** Option and Result values for the error paths of the repair engine. */
module Results {

  /** A value that may be absent: a lookup that found nothing, or an operation that failed without detail. */
  datatype Option<+T> = None | Some(value: T)

  /** The outcome of an operation that either yields a value or reports an error. */
  datatype Result<+T, +E> = Ok(value: T) | Err(error: E)
}

=== FILE: storage.dfy ===
/**
 The catalog of tracked entries and their taggings, as the repair engine
 sees it through the storage collaborator. Records are addressed by id
 (the index into `files`), taggings are rows kept in insertion order, and
 every query answers with the first matching row.
 */
module Storage {
  import opened Results
  import opened FileSystem

  type FileId = nat
  type TagId = nat

  /** A tracked file or directory: its path, content fingerprint ("" for none), modification time and size. */
  datatype FileRecord = FileRecord(path: Path, fingerprint: string, modTime: Timestamp, size: nat)

  /** A record together with its id, as a catalog query hands it out (database.File). */
  datatype Entry = Entry(id: FileId, file: FileRecord)

  /** A tag applied to a file, either explicitly by the user or implicitly through a tagged directory. */
  datatype Tagging = Tagging(fileId: FileId, tagId: TagId, implicit: bool)

  /** `files[i]` is the record with id i. */
  datatype Catalog = Catalog(files: seq<FileRecord>, taggings: seq<Tagging>)

  /** Every record of `c` is still in `c'`, unchanged, and every tagging row too: `c'` only appended. */
  predicate AppendOnly(c: Catalog, c': Catalog) {
    c.files <= c'.files && c.taggings <= c'.taggings
  }

  /** No record was deleted and tagging rows were only appended; records may have been updated in place. */
  predicate Grows(c: Catalog, c': Catalog) {
    |c.files| <= |c'.files| && c.taggings <= c'.taggings
  }

  /** `c'` agrees with `c` on every record except possibly the one with id `id`. */
  predicate OthersUnchanged(c: Catalog, c': Catalog, id: FileId) {
    |c.files| <= |c'.files| &&
    forall i | 0 <= i < |c.files| && i != id :: c'.files[i] == c.files[i]
  }

  /** No two records share a path. */
  predicate UniquePaths(c: Catalog) {
    forall i, j | 0 <= i < j < |c.files| :: c.files[i].path != c.files[j].path
  }

  /** The file `id` carries an implicit tagging with `tag`. */
  predicate HasImplicit(c: Catalog, id: FileId, tag: TagId) {
    Tagging(id, tag, true) in c.taggings
  }

  /** store.FilesByDirectory: the records strictly below `dir`, in id order. */
  function FilesByDirectory(c: Catalog, dir: Path): (r: seq<Entry>)
    ensures forall k | 0 <= k < |r| ::
      r[k].id < |c.files| && r[k].file == c.files[r[k].id] && Within(r[k].file.path, dir)
    ensures forall id | 0 <= id < |c.files| && Within(c.files[id].path, dir) ::
      Entry(id, c.files[id]) in r
    ensures forall k, l | 0 <= k < l < |r| :: r[k].id < r[l].id
  {
    FilesFrom(c, dir, 0)
  }

  function FilesFrom(c: Catalog, dir: Path, from: nat): (r: seq<Entry>)
    ensures forall k | 0 <= k < |r| ::
      from <= r[k].id < |c.files| && r[k].file == c.files[r[k].id] && Within(r[k].file.path, dir)
    ensures forall id | from <= id < |c.files| && Within(c.files[id].path, dir) ::
      Entry(id, c.files[id]) in r
    ensures forall k, l | 0 <= k < l < |r| :: r[k].id < r[l].id
    decreases |c.files| - from
  {
    if from >= |c.files| then []
    else
      var rest := FilesFrom(c, dir, from + 1);
      if Within(c.files[from].path, dir) then [Entry(from, c.files[from])] + rest else rest
  }

  /** store.FileByPath: the id of the first record with path `p`, if any. */
  function FileByPath(c: Catalog, p: Path): (r: Option<FileId>)
    ensures r.Some? ==> r.value < |c.files| && c.files[r.value].path == p
    ensures r.Some? ==> forall i | 0 <= i < r.value :: c.files[i].path != p
    ensures r.None? ==> forall i | 0 <= i < |c.files| :: c.files[i].path != p
  {
    FileByPathFrom(c, p, 0)
  }

  function FileByPathFrom(c: Catalog, p: Path, from: nat): (r: Option<FileId>)
    ensures r.Some? ==> from <= r.value < |c.files| && c.files[r.value].path == p
    ensures r.Some? ==> forall i | from <= i < r.value :: c.files[i].path != p
    ensures r.None? ==> forall i | from <= i < |c.files| :: c.files[i].path != p
    decreases |c.files| - from
  {
    if from >= |c.files| then None
    else if c.files[from].path == p then Some(from)
    else FileByPathFrom(c, p, from + 1)
  }

  /** store.FileTagByFileIdAndTagId: the first tagging row for the pair, if any. */
  function FileTagByFileIdAndTagId(c: Catalog, id: FileId, tag: TagId): (r: Option<Tagging>)
    ensures r.Some? ==> r.value in c.taggings && r.value.fileId == id && r.value.tagId == tag
    ensures r.None? <==> forall g | g in c.taggings :: g.fileId != id || g.tagId != tag
    ensures r.Some? ==> exists k | 0 <= k < |c.taggings| ::
      (c.taggings[k] == r.value &&
       forall j | 0 <= j < k :: c.taggings[j].fileId != id || c.taggings[j].tagId != tag)
  {
    FirstTagging(c.taggings, id, tag)
  }

  function FirstTagging(rows: seq<Tagging>, id: FileId, tag: TagId): (r: Option<Tagging>)
    ensures r.Some? ==> r.value in rows && r.value.fileId == id && r.value.tagId == tag
    ensures r.None? <==> forall g | g in rows :: g.fileId != id || g.tagId != tag
    ensures r.Some? ==> exists k | 0 <= k < |rows| ::
      (rows[k] == r.value &&
       forall j | 0 <= j < k :: rows[j].fileId != id || rows[j].tagId != tag)
  {
    if rows == [] then None
    else if rows[0].fileId == id && rows[0].tagId == tag then Some(rows[0])
    else
      var r := FirstTagging(rows[1..], id, tag);
      assert forall g | g in rows[1..] :: g in rows;
      if r.Some? then
        var k :| 0 <= k < |rows[1..]| && rows[1..][k] == r.value &&
          forall j | 0 <= j < k :: rows[1..][j].fileId != id || rows[1..][j].tagId != tag;
        assert rows[k + 1] == r.value;
        r
      else r
  }

  /** `tag` is among the tags of file `id` (only explicit taggings count when `explicitOnly`). */
  predicate TaggedWith(c: Catalog, id: FileId, tag: TagId, explicitOnly: bool) {
    exists g | g in c.taggings :: g.fileId == id && g.tagId == tag && (!explicitOnly || !g.implicit)
  }

  predicate Distinct<T(==)>(s: seq<T>) {
    forall i, j | 0 <= i < j < |s| :: s[i] != s[j]
  }

  /**
   store.TagsByFileId: each tag of file `id` once, in order of first
   appearance; with `explicitOnly`, implicit taggings are ignored.
   */
  function TagsByFileId(c: Catalog, id: FileId, explicitOnly: bool): (r: seq<TagId>)
    ensures forall t :: t in r <==> TaggedWith(c, id, t, explicitOnly)
    ensures Distinct(r)
  {
    CollectTags(c.taggings, id, explicitOnly, [])
  }

  function CollectTags(rows: seq<Tagging>, id: FileId, explicitOnly: bool, acc: seq<TagId>): (r: seq<TagId>)
    requires Distinct(acc)
    ensures forall t :: t in r <==>
      (t in acc || exists g | g in rows :: g.fileId == id && g.tagId == t && (!explicitOnly || !g.implicit))
    ensures Distinct(r)
    decreases |rows|
  {
    if rows == [] then acc
    else
      var g := rows[0];
      assert forall h | h in rows :: h == g || h in rows[1..];
      if g.fileId == id && (!explicitOnly || !g.implicit) && g.tagId !in acc then
        CollectTags(rows[1..], id, explicitOnly, acc + [g.tagId])
      else
        CollectTags(rows[1..], id, explicitOnly, acc)
  }

  /** Why the catalog refuses a write: the path is already held by another record. */
  datatype StoreError = DuplicatePath(path: Path)

  /** No record other than `id` holds path `p`. */
  predicate PathFree(c: Catalog, id: FileId, p: Path) {
    forall i | 0 <= i < |c.files| && i != id :: c.files[i].path != p
  }

  /**
   store.UpdateFile: replace the record with id `id`. The catalog keeps
   paths unique, so giving the record a path that another record holds is
   refused; an unknown id updates nothing.
   */
  function UpdateFile(c: Catalog, id: FileId, file: FileRecord): (r: Result<Catalog, StoreError>)
    ensures r.Err? <==> id < |c.files| && !PathFree(c, id, file.path)
    ensures r.Err? ==> r.error == DuplicatePath(file.path)
    ensures r.Ok? ==> OthersUnchanged(c, r.value, id) && |r.value.files| == |c.files|
    ensures r.Ok? && id < |c.files| ==> r.value.files[id] == file
    ensures r.Ok? ==> r.value.taggings == c.taggings
    ensures r.Ok? && UniquePaths(c) ==> UniquePaths(r.value)
  {
    if id >= |c.files| then Ok(c)
    else if PathFree(c, id, file.path) then Ok(c.(files := c.files[id := file]))
    else Err(DuplicatePath(file.path))
  }

  /** store.AddFile: append a record under the next free id. */
  function AddFile(c: Catalog, file: FileRecord): (r: (Catalog, FileId))
    ensures r.1 == |c.files| && r.0.files == c.files + [file]
    ensures r.0.taggings == c.taggings
  {
    (c.(files := c.files + [file]), |c.files|)
  }

  /** store.AddImplicitFileTag: append an implicit tagging row. */
  function AddImplicitFileTag(c: Catalog, id: FileId, tag: TagId): (r: Catalog)
    ensures AppendOnly(c, r) && HasImplicit(r, id, tag)
    ensures r.files == c.files && r.taggings == c.taggings + [Tagging(id, tag, true)]
  {
    c.(taggings := c.taggings + [Tagging(id, tag, true)])
  }

  /** Appending records and rows never changes which record a path lookup finds first. */
  lemma FileByPathStable(c: Catalog, c': Catalog, p: Path)
    requires AppendOnly(c, c') && FileByPath(c, p).Some?
    ensures FileByPath(c', p) == FileByPath(c, p)
  {
    var i := FileByPath(c, p).value;
    assert c'.files[i] == c.files[i];
    forall j | 0 <= j < i
      ensures c'.files[j].path != p
    {
      assert c'.files[j] == c.files[j];
    }
  }

  /** Appending rows never changes which tagging row a (file, tag) lookup finds first. */
  lemma FileTagStable(c: Catalog, c': Catalog, id: FileId, tag: TagId)
    requires c.taggings <= c'.taggings && FileTagByFileIdAndTagId(c, id, tag).Some?
    ensures FileTagByFileIdAndTagId(c', id, tag) == FileTagByFileIdAndTagId(c, id, tag)
  {
    FirstTaggingPrefix(c.taggings, c'.taggings, id, tag);
  }

  lemma {:induction false} FirstTaggingPrefix(rows: seq<Tagging>, rows': seq<Tagging>, id: FileId, tag: TagId)
    requires rows <= rows' && FirstTagging(rows, id, tag).Some?
    ensures FirstTagging(rows', id, tag) == FirstTagging(rows, id, tag)
    decreases |rows|
  {
    if rows[0].fileId == id && rows[0].tagId == tag {
    } else {
      assert rows[1..] <= rows'[1..];
      FirstTaggingPrefix(rows[1..], rows'[1..], id, tag);
    }
  }
}
